=== FILE: README.md ===
# GroupMe Reminders, modelled in Dafny

GroupMe Reminders is a bot for a GroupMe group. People in the group create
reminders by chat message. The bot sends each reminder as an SMS through a
Textbelt endpoint when its notification minute comes. This project models
the pure logic at the heart of three scripts and proves properties about it:

- **Reminders** (`tasks.py`), in modules `Tasks` and `Scheduler`:
  - how a task turns an offset such as "30 minutes before" into its
    notification minute;
  - how a task is rendered as text;
  - the scheduler's list operations;
  - one pass of the notification loop.
- **The bot's start-up and message loop** (`app.py`), in modules `Settings`
  and `Polling`:
  - how each line of the settings file yields a value, and how six values
    become the settings;
  - which fetched messages are answered, with what text, and which message
    id the next fetch starts after.
- **The setup script** (`config_util.py`), in module `ConfigUtil`:
  - how rounds of answers are defaulted and checked for blanks;
  - how the accepted answers are written as a six-line settings file;
  - the round trip from that writer through the bot's reader.

Module `Text` gives the Python string operations the scripts rely on their
Python meaning: `strip`, `split`, `replace`, `startswith`, `lower` and
line-by-line reading of a file opened in text mode, where `\n`, `\r\n` and a
lone `\r` all end a line. Module `Numerals` does the same for `int()` on
text and `str()` on integers.

Modelling choices:

- Timestamps are whole minutes counted from 0001-01-01 00:00, the first
  minute a Python `datetime` can hold. `Minute` is bounded by the last one,
  9999-12-31 23:59. Subtracting an offset that leaves this range raises an
  overflow in Python. The bare `except` around the subtraction catches it,
  so the model falls back to the task's own minute.
- Python `int()` is modelled as follows:
  - whitespace (`str.isspace`) around the numeral is skipped, except the
    four information separators U+001C..U+001F: `int()` refuses a text
    holding any of them, although `strip()` removes them;
  - one optional sign is allowed;
  - then ASCII digits, with single underscores allowed between two digits.
- A task's identity is a `handle` number. `list.remove` compares tasks by
  identity, because the task class defines no equality.
- The scheduler holds the task list and the copy the notification loop
  iterates over. Outside a pass the copy is empty.

Behaviour worth noting:

- A negative count is accepted by `int()`, so a notification can fall after
  the task's start (`Tasks.NegativeCountNotifiesLater`). The notification
  minute is not always at or before the start.
- A task without a phone number is still posted to the relay, with no
  number. Sending is not skipped.
- The offset text is not kept on the task. The constructor overwrites it
  with the computed minute.

## Model

| member | source | states |
|---|---|---|
| Text.Strip | groupme_reminders/app.py:20 | `strip()` leaves a text that neither starts nor ends with whitespace, and is never longer |
| Text.StripSurrounded | groupme_reminders/app.py:20 | what `strip()` removes is exactly the whitespace around an already stripped text |
| Text.Before | groupme_reminders/tasks.py:40 | `split(sep)[0]` is the prefix up to the first occurrence of `sep`, or the whole text when `sep` is absent |
| Text.AfterFirst | groupme_reminders/app.py:18 | `split('=', 1)[1]` is the suffix after the first `=`, and no `=` comes before it |
| Text.AfterFirstOfConcat | groupme_reminders/app.py:18 | after the first `=`, everything that follows is kept, later `=` included |
| Text.RemoveChar | groupme_reminders/app.py:19 | `replace("'", '')` leaves no quote and never lengthens the text |
| Text.RemoveCharMembers | groupme_reminders/app.py:19 | `replace("'", '')` keeps exactly the characters other than the quote |
| Text.CutAt | groupme_reminders/app.py:20 | `re.sub('#.*', '', s)` on one line leaves the prefix before the first `#`, which has no `#` |
| Text.Lower | groupme_reminders/app.py:67 | `lower()` keeps the length and lowers each ASCII capital |
| Text.Newlines | groupme_reminders/app.py:14 | text-mode reading leaves no carriage return in the text |
| Text.NewlinesCrLf | groupme_reminders/app.py:14 | a `\r\n` pair becomes a single `\n`: one line end, not two |
| Text.NewlinesLoneCr | groupme_reminders/app.py:14 | a `\r` not followed by `\n` becomes a `\n` of its own |
| Text.NewlinesKeepPlainText | groupme_reminders/app.py:14 | a file without carriage returns is read as written |
| Text.FileLines | groupme_reminders/app.py:14-15 | iterating a text-mode file yields lines holding neither a newline nor a carriage return |
| Text.CarriageReturnEndsLine | groupme_reminders/app.py:14-15 | a carriage return ends the line it is in, just as a newline does |
| Text.CrLfSeparatesLines | groupme_reminders/app.py:14-15 | two lines separated by `\r\n` are read as exactly those two lines |
| Text.MixedLineEnds | groupme_reminders/app.py:14-15 | a file whose lines end in `\r\n`, `\r` and `\n` yields one line per line end, then the empty segment a final terminator leaves (see Text.FileLines under Left out) |
| Text.FileLinesOfJoin | groupme_reminders/app.py:14-15 | lines written with newlines between them, none holding a line end, are read back as the same lines |
| Text.JoinLinesEnd | groupme_reminders/config_util.py:59-75 | text written as newline-separated lines ends with the last line, with no newline after it |
| Numerals.PyIntCharacters | groupme_reminders/tasks.py:41 | `int()` accepts a text only when every character is skippable whitespace, a sign, a digit or an underscore |
| Numerals.InfoSeparatorUnreadable | groupme_reminders/tasks.py:41 | an information separator before or after the numeral makes `int()` fail, although `strip()` would remove it |
| Numerals.PyIntShow | groupme_reminders/tasks.py:41 | `int()` reads back every integer `str()` writes, negative ones included |
| Numerals.InnerBlankUnreadable | groupme_reminders/tasks.py:41 | `int()` rejects text with a blank between non-blank characters |
| Numerals.PyIntIgnoresTrailingSpace | groupme_reminders/tasks.py:47-48 | `int()` tolerates a trailing whitespace character other than an information separator, such as the blank the hour branch leaves |
| Numerals.PyIntIgnoresLeadingSpace | groupme_reminders/tasks.py:40-41 | `int()` tolerates a leading whitespace character other than an information separator, as in an offset typed with a blank before the count |
| Tasks.Separator | groupme_reminders/tasks.py:40-61 | the count is cut at the marker itself, except for hours, where it is cut at `hour` without the leading blank |
| Tasks.Selected | groupme_reminders/tasks.py:38-67 | the branch taken is the first of minute, hour, day, week whose marker the offset contains, and none when no marker is present |
| Tasks.CountOfText | groupme_reminders/tasks.py:38-62 | each branch reads `int()` of the text before the first occurrence of its separator, or of the whole offset when the separator is absent |
| Tasks.ShiftedInRange | groupme_reminders/tasks.py:39-44 | the subtraction is kept exactly when its result is a valid `datetime`; otherwise the task's own minute is used |
| Tasks.Resolve | groupme_reminders/tasks.py:38-67 | with no marker, the task's minute. Otherwise the selected branch alone decides: count units before the task when the count parses and the result is a valid minute, else the task's minute |
| Tasks.NewTask | groupme_reminders/tasks.py:19-28 | construction fails exactly when the date and time do not parse; otherwise the fields are kept and the notification minute is resolved from the offset |
| Tasks.ShownDescription | groupme_reminders/tasks.py:81-84 | the shown description is a prefix of at most 60 characters: all of it when short, exactly 60 characters when longer |
| Tasks.Render | groupme_reminders/tasks.py:80-91 | the rendering starts with the title line and ends with the shown description |
| Tasks.Tts | groupme_reminders/tasks.py:72-77 | the spoken text starts with the title, the start date, the task time and a blank line, and ends with a blank and the full description |
| Tasks.SelectsShownOffset | groupme_reminders/tasks.py:38-65 | an offset written as number, unit and "s before" selects that unit's branch |
| Tasks.CountOfShownOffset | groupme_reminders/tasks.py:40-62 | the count read from such an offset is the number written |
| Tasks.HourCountText | groupme_reminders/tasks.py:47 | splitting on `hour` leaves the count with a trailing blank |
| Tasks.ResolveShownOffset | groupme_reminders/tasks.py:38-65 | "n units before" resolves to n units before the task when that minute exists, else to the task's minute |
| Tasks.ThirtyMinutesBefore | groupme_reminders/tasks.py:38-42 | "30 minutes before" notifies 30 minutes before the task |
| Tasks.NegativeCountNotifiesLater | groupme_reminders/tasks.py:45-49 | a negative hour count notifies after the task's start |
| Tasks.MinuteCountUnreadable | groupme_reminders/tasks.py:38-44 | "1 hour 30 minutes before" takes the minute branch, whose count text does not parse |
| Tasks.MixedUnitsFallBack | groupme_reminders/tasks.py:38-44 | "1 hour 30 minutes before" falls back to the task's minute; the hour marker is never consulted |
| Tasks.GarbageFallsBack | groupme_reminders/tasks.py:66-67 | an offset with no marker notifies at the task's minute |
| Scheduler.Initial | groupme_reminders/tasks.py:97-99 | a new scheduler has no tasks and an empty copy |
| Scheduler.RemoveFirst | groupme_reminders/tasks.py:110 | removal deletes the first occurrence only, keeping what is before and after it |
| Scheduler.RemoveFirstCount | groupme_reminders/tasks.py:110 | removal takes exactly one copy of the task out of the list |
| Scheduler.Schedule | groupme_reminders/tasks.py:104-105 | scheduling appends the task at the end and changes nothing else |
| Scheduler.Remove | groupme_reminders/tasks.py:109-110 | removing fails exactly when the task is absent; otherwise exactly its first occurrence goes |
| Scheduler.RemoveAll | groupme_reminders/tasks.py:113-116 | clearing empties the list and reports success |
| Scheduler.ScheduleThenRemove | groupme_reminders/tasks.py:104-110 | removing a task just scheduled restores the scheduler |
| Scheduler.DueMembers | groupme_reminders/tasks.py:158-159 | the tasks dispatched are exactly those whose notification minute is now |
| Scheduler.WaitingMembers | groupme_reminders/tasks.py:158-166 | the tasks kept are exactly those whose notification minute is not now |
| Scheduler.NoticesElement | groupme_reminders/tasks.py:160 | each notification carries the task's spoken text and its phone number |
| Scheduler.Handle | groupme_reminders/tasks.py:158-166 | handling one copied task dispatches and removes it when due and leaves the list alone otherwise |
| Scheduler.Tick | groupme_reminders/tasks.py:152-168 | a pass dispatches the due tasks in list order, keeps the rest in order, and leaves the copy empty |
| Scheduler.DueWaitingPartition | groupme_reminders/tasks.py:158-166 | every task is either dispatched or kept, exactly once |
| Scheduler.SecondPassSendsNothing | groupme_reminders/tasks.py:152-169 | a second pass in the same minute dispatches nothing |
| Scheduler.ClearThenTick | groupme_reminders/tasks.py:113-168 | after `remove_all()` the next pass sends nothing and leaves the scheduler as a new one |
| Scheduler.WaitingKeepsOrder | groupme_reminders/tasks.py:158-166 | tasks not due are kept as they were, in order |
| Settings.ValueOf | groupme_reminders/app.py:17-20 | a value has no single quote, no `#` and no surrounding whitespace |
| Settings.ValuesOf | groupme_reminders/app.py:14-20 | one value is read for each line that holds `=` |
| Settings.ValueOfKeepsOut | groupme_reminders/app.py:18-20 | a value holds no character its line does not |
| Settings.ValuesClean | groupme_reminders/app.py:14-20 | every value read from any file is clean: no quote, no `#`, no surrounding whitespace |
| Settings.LoadSettings | groupme_reminders/app.py:23-28 | the settings exist exactly when there are at least six values, and are the first six in order |
| Settings.Load | groupme_reminders/app.py:14-28 | whatever the file holds, each setting the bot starts with is clean |
| Settings.ValuesOfAppend | groupme_reminders/app.py:15-20 | values are read line by line, in file order |
| Settings.ValuesOfAssignments | groupme_reminders/app.py:15-20 | each line with `=` contributes exactly one value |
| Settings.ValuesOfSkipsComment | groupme_reminders/app.py:17 | a line without `=` contributes nothing |
| Settings.ValueOfAfterFirstEquals | groupme_reminders/app.py:18 | text before the first `=` never reaches the value |
| Settings.QuotedValueReadsBack | groupme_reminders/app.py:17-20 | a quoted value followed by blanks and a comment reads back as itself exactly when it is clean |
| Settings.QuotedHashStartsComment | groupme_reminders/app.py:19-20 | a `#` inside quotes still starts the comment |
| Polling.SinceAfter | groupme_reminders/app.py:45 | after a pass, the next fetch starts after the last message answered, or where it did when none was answered |
| Polling.Poll | groupme_reminders/app.py:66-78 | the loop answers the messages the pass defines and updates `since_id` to the last one answered |
| Polling.AppendAfterRunning | groupme_reminders/app.py:66-78 | until a message ends the pass, replies accumulate message by message |
| Polling.AppendAfterHalt | groupme_reminders/app.py:66-78 | after a person's message or a message without text, later messages get no reply |
| Polling.RepliesAnswerMessages | groupme_reminders/app.py:67-75 | every reply answers a fetched message that qualifies: a bot's command as written, a person's message lower-cased |
| Polling.PersonAnsweredLast | groupme_reminders/app.py:74-78 | only the last reply of a pass can answer a person |
| Polling.PersonAnswered | groupme_reminders/app.py:66-78 | a person's message with text reached before the pass ends is answered, lower-cased, as the last reply of the pass |
| Polling.ReachedAnswered | groupme_reminders/app.py:66-76 | every message the bot answers, a person's or a bot command, gets a reply when the pass reaches it, whatever follows it |
| Polling.BotCommandsAllAnswered | groupme_reminders/app.py:67-73 | in a pass made only of bot messages with text, exactly those whose lower-cased text starts with the command are answered |
| ConfigUtil.OrDefault | groupme_reminders/config_util.py:25-35 | an empty optional answer becomes the given default; any other is kept |
| ConfigUtil.Round | groupme_reminders/config_util.py:15-37 | a round keeps the four required answers as typed; each name is kept when typed and is 'MQTTTasky Bot' or 'MQTTTasky Notifications' when left empty |
| ConfigUtil.FirstBlank | groupme_reminders/config_util.py:39-51 | a round is rejected exactly when some entry is empty, and the line reported is the first empty one |
| ConfigUtil.RequiredBlankOnly | groupme_reminders/config_util.py:27-45 | only one of the four required answers can be reported blank |
| ConfigUtil.AcceptedRound | groupme_reminders/config_util.py:39-54 | a round is accepted exactly when the four required answers are given |
| ConfigUtil.Collect | groupme_reminders/config_util.py:13-54 | the rounds are repeated until the first accepted one, each rejected round reporting its first blank line |
| ConfigUtil.FieldLayout | groupme_reminders/config_util.py:59-75 | keys have no `=`, the padding is blanks, and comments start with `#` and hold no quote |
| ConfigUtil.EntryShape | groupme_reminders/config_util.py:59-75 | each written line is an assignment and one line, as long as its value holds no line end |
| ConfigUtil.SerializeLines | groupme_reminders/config_util.py:59-75 | the written file reads back as six lines, one per field in the fixed key order, each `KEY = 'value'`, padding and comment |
| ConfigUtil.SerializeEnd | groupme_reminders/config_util.py:74-75 | the file ends with the group name's comment, with no newline after it |
| ConfigUtil.CarriageReturnCutsValue | groupme_reminders/config_util.py:59-60 | an access token typed with a carriage return is read back from the part before it alone, so it never comes back |
| ConfigUtil.ReadBackValues | groupme_reminders/config_util.py:59-75 | when no value holds a line end, the written file reads back as six values, each equal to the written one exactly when it is clean |
| ConfigUtil.RoundTrip | groupme_reminders/config_util.py:59-75 | when no value holds a line end, the bot starts with exactly the written settings if and only if none holds a quote or `#` or surrounding whitespace |

## Left out

- HTTP traffic is not modelled, because it is network I/O. This covers the message fetch, the reply post, the Textbelt post, their status codes and the exceptions around them. A dispatched notification is recorded as its text and phone number.
- The bot's reply wording is not modelled. A reply records the text it is generated from. `bot_calls` is not part of this model.
- Threads, status lights, `sleep` and text-to-speech through `os.system` are not modelled, because they are concurrency and foreign calls. Each list operation and each pass of the loop is modelled as atomic.
- Scheduler.Tick: a task removed by another thread between the copy and its own removal is a race and is not modelled.
- Scheduler.RemoveAll: the retry after a failed `clear()` and its `False` result are not modelled. Clearing a list cannot fail when nothing runs concurrently.
- The singleton plumbing of the scheduler class is not modelled.
- `set_textbelt_url` and the URL constants are not modelled.
- The clock is not modelled. `now` is passed to `Scheduler.Tick` already cut to the minute.
- `strptime` is a parameter of `Tasks.NewTask`. It yields None where it would raise.
- Tasks.Render: `str()` of a `datetime` is a parameter, so the notification line's exact text is not stated.
- Numerals.PyInt: Unicode digits outside ASCII are not accepted, unlike Python's `int()`.
- Numerals.PyInt: the limit of 4300 digits that `int()` enforces in recent Python releases (3.11, and the 3.10.7, 3.9.14, 3.8.14 and 3.7.14 updates) is not modelled; the scripts name no Python version. Under that limit a longer count makes `int()` fail.
- Tasks.Resolve: a count of more than 4300 digits is read as a number, where Python releases with the digit limit fall back to the task's minute. Leading zeros are the only way such a count can still give a minute in range.
- Text.FileLines: after a final line end, and for an empty file, the split keeps one empty segment that `for line in f` does not yield. It holds no `=`, so it adds no value. The terminators Python keeps on each line are dropped; the `strip()` at app.py:20 removes them anyway.
- Text.Lower: only ASCII capitals are lowered. Python's `lower()` also lowers other letters and can change a text's length.
- The `print` calls are not modelled, because they are console output: the notification minute at tasks.py:106, the relay's failure reason at tasks.py:134-137, the reply log at app.py:47-49 and the failed fetch at app.py:83.
- ConfigUtil.ReadBackValues: values holding a carriage return are not covered. The reader ends a line there (Text.CarriageReturnEndsLine), so the value is read back cut (ConfigUtil.CarriageReturnCutsValue), and its rest may add a value of its own.
- ConfigUtil.RoundTrip: values holding a carriage return are not covered, for the same reason. A prompt's answer never holds a newline.
- ConfigUtil.SerializeLines: values holding a line end are not covered, because they split the line they are written in.
- File opening, reading and writing, `input()` prompts, the quit prompt and `exit` are not modelled. The model works on text in and text out.
- ConfigUtil.Collect: the answers are a finite list of rounds. When they run out before a round is accepted, the result is None, where the script would keep asking.

=== FILE: config_util.dfy ===
/** The interactive setup (config_util.py): it asks for the six settings
    round after round until the four required ones are all given, then
    writes them as six `KEY = 'value'` lines that the bot reads back at
    start-up. */
module ConfigUtil {
  import opened Text
  import opened Settings

  const DefaultBotName: string := "MQTTTasky Bot"
  const DefaultGroupName: string := "MQTTTasky Notifications"

  /** An optional answer: the default when left empty. */
  function OrDefault(answer: string, default: string): (r: string)
    requires |default| > 0
    ensures |r| > 0
    ensures |answer| > 0 ==> r == answer
    ensures |answer| == 0 ==> r == default
  {
    if |answer| == 0 then default else answer
  }

  /** The list one round of six answers produces: the four required answers
      as typed, then the two names with their defaults. */
  function Round(answers: seq<string>): (data: seq<string>)
    requires |answers| == 6
    ensures |data| == 6 && data[..4] == answers[..4]
    ensures data[4] != [] && data[5] != []
    ensures answers[4] != [] ==> data[4] == answers[4]
    ensures answers[4] == [] ==> data[4] == DefaultBotName
    ensures answers[5] != [] ==> data[5] == answers[5]
    ensures answers[5] == [] ==> data[5] == DefaultGroupName
  {
    answers[..4] + [OrDefault(answers[4], DefaultBotName), OrDefault(answers[5], DefaultGroupName)]
  }

  /** `n` is the line the setup reports as the first one left blank. */
  predicate ReportsBlank(data: seq<string>, n: nat) {
    && 1 <= n <= |data|
    && data[n - 1] == []
    && forall j :: 0 <= j < n - 1 ==> data[j] != []
  }

  predicate NoBlank(data: seq<string>) {
    forall j :: 0 <= j < |data| ==> data[j] != []
  }

  /** The check after each round: the number of the first line left blank,
      or None when every line was given. */
  method FirstBlank(data: seq<string>) returns (line: Option<nat>)
    requires |data| == 6
    ensures line.None? <==> NoBlank(data)
    ensures line.Some? ==> ReportsBlank(data, line.value)
  {
    var i := 0;
    while i < 6
      invariant 0 <= i <= 6
      invariant forall j :: 0 <= j < i ==> data[j] != []
    {
      if |data[i]| == 0 {
        return Some(i + 1);
      }
      i := i + 1;
    }
    return None;
  }

  /** Only a required answer can be reported blank. */
  lemma RequiredBlankOnly(answers: seq<string>, n: nat)
    requires |answers| == 6
    requires ReportsBlank(Round(answers), n)
    ensures n <= 4 && answers[n - 1] == []
  {
    var data := Round(answers);
    assert data[n - 1] == [];
    assert data[..4][n - 1] == answers[..4][n - 1];
  }

  /** A round is accepted exactly when the four required answers are given. */
  lemma AcceptedRound(answers: seq<string>)
    requires |answers| == 6
    ensures NoBlank(Round(answers)) <==> forall j :: 0 <= j < 4 ==> answers[j] != []
  {
    var data := Round(answers);
    assert forall j :: 0 <= j < 4 ==> data[j] == data[..4][j] == answers[..4][j] == answers[j];
  }

  /** The rounds of answers up to the first accepted one: the line reported
      blank for every rejected round, and the list accepted. When the
      answers run out first, nothing is accepted (the setup would keep
      asking). */
  method Collect(rounds: seq<seq<string>>)
    returns (accepted: Option<seq<string>>, blanks: seq<nat>)
    requires forall r :: 0 <= r < |rounds| ==> |rounds[r]| == 6
    ensures |blanks| <= |rounds|
    ensures forall r :: 0 <= r < |blanks| ==> ReportsBlank(Round(rounds[r]), blanks[r])
    ensures accepted.None? ==> |blanks| == |rounds|
    ensures accepted.Some? ==>
              |blanks| < |rounds| && accepted.value == Round(rounds[|blanks|])
              && NoBlank(accepted.value)
  {
    blanks := [];
    var r := 0;
    while r < |rounds|
      invariant 0 <= r <= |rounds| && |blanks| == r
      invariant forall q :: 0 <= q < r ==> ReportsBlank(Round(rounds[q]), blanks[q])
    {
      var data := Round(rounds[r]);
      var line := FirstBlank(data);
      if line.None? {
        return Some(data), blanks;
      }
      blanks := blanks + [line.value];
      r := r + 1;
    }
    return None, blanks;
  }

  // ---------------------------------------------------------------- the settings file

  datatype Field = AccessToken | BotId | GroupId | TextbeltUrl | BotName | GroupName

  /** The fields in the order they are written and read. */
  const Order: seq<Field> := [AccessToken, BotId, GroupId, TextbeltUrl, BotName, GroupName]

  function KeyName(f: Field): string {
    match f
    case AccessToken => "ACCESS_TOKEN"
    case BotId => "BOT_ID"
    case GroupId => "GROUP_ID"
    case TextbeltUrl => "TEXTBELT_URL"
    case BotName => "BOT_NAME"
    case GroupName => "GROUP_NAME"
  }

  /** The blanks between the closing quote and the comment. */
  function Padding(f: Field): string {
    match f
    case AccessToken => "     "
    case BotId => "         "
    case GroupId => "       "
    case TextbeltUrl => "       "
    case BotName => "       "
    case GroupName => "     "
  }

  function Comment(f: Field): string {
    match f
    case AccessToken => "# GROUPME ACCESS TOKEN"
    case BotId => "# GROUPME BOT ID"
    case GroupId => "# GROUPME GROUP ID"
    case TextbeltUrl => "# TEXTBELT ENDPOINT"
    case BotName => "# GROUPME BOT NAME (ARBITRARY)"
    case GroupName => "# GROUPME GROUP NAME (ARBITRARY)"
  }

  /** The line the setup writes for one field. */
  function Entry(f: Field, v: string): string {
    KeyName(f) + " = '" + v + "'" + Padding(f) + Comment(f)
  }

  function Entries(data: seq<string>): (es: seq<string>)
    requires |data| == 6
    ensures |es| == 6
  {
    seq(6, k requires 0 <= k < 6 => Entry(Order[k], data[k]))
  }

  /** The settings file the setup writes: the six lines, separated by
      newlines, the last one without. */
  function Serialize(data: seq<string>): string
    requires |data| == 6
  {
    JoinLines(Entries(data))
  }

  // ---------------------------------------------------------------- reading back

  /** What the layout of each line guarantees, whatever the value. */
  lemma FieldLayout(f: Field)
    ensures '=' !in KeyName(f) && '\n' !in KeyName(f) && '\r' !in KeyName(f)
    ensures AllSpace(Padding(f)) && '\'' !in Padding(f) && '\n' !in Padding(f) && '\r' !in Padding(f)
    ensures |Comment(f)| > 0 && Comment(f)[0] == '#'
    ensures '\'' !in Comment(f) && '\n' !in Comment(f) && '\r' !in Comment(f)
  {
    KeyLayout(f);
    PaddingLayout(f);
    CommentLayout(f);
  }

  lemma KeyLayout(f: Field)
    ensures forall i :: 0 <= i < |KeyName(f)| ==> 'A' <= KeyName(f)[i] <= 'Z' || KeyName(f)[i] == '_'
  {
  }

  lemma PaddingLayout(f: Field)
    ensures forall i :: 0 <= i < |Padding(f)| ==> Padding(f)[i] == ' '
  {
  }

  lemma CommentLayout(f: Field)
    ensures |Comment(f)| > 0 && Comment(f)[0] == '#'
    ensures '\'' !in Comment(f) && '\n' !in Comment(f) && '\r' !in Comment(f)
  {
    match f
    case AccessToken => AccessTokenComment();
    case BotId => BotIdComment();
    case GroupId => GroupIdComment();
    case TextbeltUrl => TextbeltUrlComment();
    case BotName => BotNameComment();
    case GroupName => GroupNameComment();
  }

  /** A comment line: a `#`, then printable characters up to `Z`, none of
      them a quote. */
  predicate PlainComment(s: string) {
    && |s| > 0 && s[0] == '#'
    && forall i :: 0 <= i < |s| ==> ' ' <= s[i] <= 'Z' && s[i] != '\''
  }

  lemma AccessTokenComment()
    ensures PlainComment(Comment(AccessToken))
  {
  }

  lemma BotIdComment()
    ensures PlainComment(Comment(BotId))
  {
  }

  lemma GroupIdComment()
    ensures PlainComment(Comment(GroupId))
  {
  }

  lemma TextbeltUrlComment()
    ensures PlainComment(Comment(TextbeltUrl))
  {
  }

  lemma BotNameComment()
    ensures PlainComment(Comment(BotName))
  {
  }

  lemma GroupNameComment()
    ensures PlainComment(Comment(GroupName))
  {
  }

  /** Every written line is an assignment, and is one line as long as the
      value has no line end. */
  lemma EntryShape(f: Field, v: string)
    requires '\n' !in v && '\r' !in v
    ensures '=' in Entry(f, v) && '\n' !in Entry(f, v) && '\r' !in Entry(f, v)
  {
    FieldLayout(f);
    var e := Entry(f, v);
    assert e[|KeyName(f)| + 1] == '=';
  }

  /** The file the setup writes reads back as its six lines, keys in the
      fixed order, as long as no value holds a line end. */
  lemma SerializeLines(data: seq<string>)
    requires |data| == 6
    requires forall k :: 0 <= k < 6 ==> '\n' !in data[k] && '\r' !in data[k]
    ensures |FileLines(Serialize(data))| == 6
    ensures forall k :: 0 <= k < 6 ==> FileLines(Serialize(data))[k] == Entry(Order[k], data[k])
  {
    var es := Entries(data);
    forall k | 0 <= k < 6
      ensures '\n' !in es[k] && '\r' !in es[k]
    {
      EntryShape(Order[k], data[k]);
    }
    FileLinesOfJoin(es);
  }

  /** The file ends with the group name's comment: no newline follows the
      last line. */
  lemma SerializeEnd(data: seq<string>)
    requires |data| == 6
    ensures |Comment(GroupName)| <= |Serialize(data)|
    ensures Serialize(data)[|Serialize(data)| - |Comment(GroupName)|..] == Comment(GroupName)
    ensures Serialize(data)[|Serialize(data)| - 1] != '\n'
  {
    var es := Entries(data);
    var text := Serialize(data);
    var c := Comment(GroupName);
    JoinLinesEnd(es);
    var last := es[5];
    assert last == (KeyName(GroupName) + " = '" + data[5] + "'" + Padding(GroupName)) + c;
    assert text[|text| - |last|..] == last;
    assert text[|text| - |c|..] == last[|last| - |c|..];
    assert c[|c| - 1] == ')';
  }

  /** The file the setup writes reads back as six values, each the written
      value exactly when that value is clean. Answers typed at a prompt hold
      no newline; a value holding a carriage return is cut where it stands
      (CarriageReturnCutsValue) and is not covered here. */
  lemma ReadBackValues(data: seq<string>)
    requires |data| == 6
    requires forall k :: 0 <= k < 6 ==> '\n' !in data[k] && '\r' !in data[k]
    ensures |ConfigValues(Serialize(data))| == 6
    ensures forall k :: 0 <= k < 6 ==> (ConfigValues(Serialize(data))[k] == data[k] <==> Clean(data[k]))
  {
    var es := Entries(data);
    forall k | 0 <= k < 6
      ensures '=' in es[k] && '\n' !in es[k] && '\r' !in es[k]
      ensures ValueOf(es[k]) == data[k] <==> Clean(data[k])
    {
      EntryShape(Order[k], data[k]);
      FieldLayout(Order[k]);
      QuotedValueReadsBack(KeyName(Order[k]), data[k], Padding(Order[k]), Comment(Order[k]));
    }
    FileLinesOfJoin(es);
    ValuesOfAssignments(es);
  }

  /** Round trip: the bot starts with exactly the settings the setup wrote
      if and only if none of them holds a single quote or a `#` or begins or
      ends with whitespace, for values without line ends. */
  lemma RoundTrip(data: seq<string>)
    requires |data| == 6
    requires forall k :: 0 <= k < 6 ==> '\n' !in data[k] && '\r' !in data[k]
    ensures Load(Serialize(data)).Some?
    ensures Fields(Load(Serialize(data)).value) == data
            <==> forall k :: 0 <= k < 6 ==> Clean(data[k])
  {
    var vs := ConfigValues(Serialize(data));
    ReadBackValues(data);
    LoadedFields(vs);
    AgreeWhenClean(vs, data);
  }

  /** A typed access token holding a carriage return does not come back:
      the reader ends the first line there, so the value read is taken from
      the part before it alone. */
  lemma CarriageReturnCutsValue(data: seq<string>, a: string, b: string)
    requires |data| == 6 && data[0] == a + "\r" + b
    requires '\n' !in a && '\r' !in a
    ensures |ConfigValues(Serialize(data))| > 0
    ensures ConfigValues(Serialize(data))[0] == ValueOf(KeyName(AccessToken) + " = '" + a)
    ensures ConfigValues(Serialize(data))[0] != data[0]
  {
    var head := KeyName(AccessToken) + " = '" + a;
    var text := Serialize(data);
    assert '\n' !in head && '\r' !in head && '=' in head by {
      FieldLayout(AccessToken);
      assert head[|KeyName(AccessToken)| + 1] == '=';
    }
    var es := Entries(data);
    var key := KeyName(AccessToken) + " = '";
    var rest := JoinLines(es[1..]);
    var more := b + "'" + Padding(AccessToken) + Comment(AccessToken) + "\n" + rest;
    assert text == head + "\r" + more by {
      assert text == es[0] + "\n" + rest;
      assert es[0] == key + data[0] + "'" + Padding(AccessToken) + Comment(AccessToken);
      Regroup(key, a, b, "'", Padding(AccessToken), Comment(AccessToken), rest);
    }
    CarriageReturnEndsLine(head, more);
    var ls := FileLines(text);
    assert ls == [head] + ls[1..];
    ValuesOfAppend([head], ls[1..]);
    ValuesOfAssignments([head]);
    ValueOfKeepsOut(head, '\r');
    assert data[0][|a|] == '\r';
  }

  lemma Regroup(p: string, a: string, b: string, q1: string, q2: string, q3: string, t: string)
    ensures p + (a + "\r" + b) + q1 + q2 + q3 + "\n" + t
            == (p + a) + "\r" + (b + q1 + q2 + q3 + "\n" + t)
  {
  }

  /** Six read-back values equal the six written ones exactly when every
      written one is clean, given that each agrees exactly when clean. */
  lemma AgreeWhenClean(vs: seq<string>, data: seq<string>)
    requires |vs| == 6 && |data| == 6
    requires forall k :: 0 <= k < 6 ==> (vs[k] == data[k] <==> Clean(data[k]))
    ensures vs == data <==> forall k :: 0 <= k < 6 ==> Clean(data[k])
  {
    if forall k :: 0 <= k < 6 ==> Clean(data[k]) {
      assert vs == data;
    }
  }

  lemma LoadedFields(vs: seq<string>)
    requires |vs| == 6
    ensures LoadSettings(vs).Some? && Fields(LoadSettings(vs).value) == vs
  {
    assert vs[..6] == vs;
  }
}

=== FILE: numerals.dfy ===
/** Python's `int(text)` on base-10 text, and the canonical decimal rendering
    of an integer it inverts. */
module Numerals {
  import opened Text

  predicate IsDigit(c: char) {
    '0' <= c <= '9'
  }

  predicate AllDigits(s: string) {
    forall i :: 0 <= i < |s| ==> IsDigit(s[i])
  }

  function DigitValue(c: char): nat
    requires IsDigit(c)
  {
    c as int - '0' as int
  }

  function DigitChar(d: nat): (c: char)
    requires d < 10
    ensures IsDigit(c) && DigitValue(c) == d
  {
    ('0' as int + d) as char
  }

  /** The number a run of decimal digits denotes, most significant first. */
  function DigitsValue(s: string): nat
    requires AllDigits(s)
    decreases |s|
  {
    if |s| == 0 then 0 else 10 * DigitsValue(s[..|s| - 1]) + DigitValue(s[|s| - 1])
  }

  /** The digits of a base-10 numeral as `int()` accepts them: ASCII digits,
      with single underscores allowed between two digits. */
  predicate IsDigitRun(b: string) {
    && |b| > 0
    && IsDigit(b[0])
    && IsDigit(b[|b| - 1])
    && (forall i :: 0 <= i < |b| ==> IsDigit(b[i]) || b[i] == '_')
    && (forall i :: 0 <= i < |b| - 1 ==> b[i] == '_' ==> b[i + 1] != '_')
  }

  lemma DigitRunWithoutUnderscores(b: string)
    requires IsDigitRun(b)
    ensures AllDigits(RemoveChar(b, '_'))
  {
    var ds := RemoveChar(b, '_');
    RemoveCharMembers(b, '_');
    forall i | 0 <= i < |ds|
      ensures IsDigit(ds[i])
    {
      assert ds[i] in ds;
    }
  }

  /** The value of a digit run; underscores only group digits. */
  function RunValue(b: string): nat
    requires IsDigitRun(b)
  {
    DigitRunWithoutUnderscores(b);
    DigitsValue(RemoveChar(b, '_'))
  }

  /** The four information separators U+001C..U+001F: whitespace to
      `str.isspace()` and `strip()`, but not to `int()`, which skips only the
      ASCII blanks among the ASCII characters. */
  const InfoSeparators: set<char> := {'\U{1C}', '\U{1D}', '\U{1E}', '\U{1F}'}

  /** A character `int()` skips around a numeral. */
  predicate IsIntSpace(c: char) {
    IsSpace(c) && c !in InfoSeparators
  }

  lemma BlankIsIntSpace()
    ensures IsIntSpace(' ')
  {
    assert ' ' in Whitespace;
  }

  predicate HasInfoSeparator(s: string) {
    '\U{1C}' in s || '\U{1D}' in s || '\U{1E}' in s || '\U{1F}' in s
  }

  /** Python's `int(text)`: surrounding whitespace is skipped, an optional
      sign may precede the digits, and anything else is a ValueError (None).
      An information separator is never part of a numeral and is not skipped
      either, so any one of them makes the call fail. */
  function PyInt(s: string): Option<int>
  {
    if HasInfoSeparator(s) then None else Numeral(Strip(s))
  }

  /** What `int()` accepts: characters it skips, then a sign, digits and
      underscores, then characters it skips. */
  lemma PyIntCharacters(s: string)
    requires PyInt(s).Some?
    ensures forall c :: c in s ==> IsIntSpace(c) || IsDigit(c) || c == '+' || c == '-' || c == '_'
  {
    var t := Strip(s);
    var i := StripDecomposition(s);
    var pre, post := s[..i], s[i + |t|..];
    assert forall c :: c in s ==> c in pre || c in t || c in post by {
      assert s == pre + t + post;
    }
    assert forall c :: c in s ==> c !in InfoSeparators by {
      SeparatorFree(s);
    }
    AllSpaceMembers(pre);
    AllSpaceMembers(post);
    NumeralCharacters(t);
  }

  lemma SeparatorFree(s: string)
    requires !HasInfoSeparator(s)
    ensures forall c :: c in s ==> c !in InfoSeparators
  {
    forall c | c in s
      ensures c !in InfoSeparators
    {
      var k :| 0 <= k < |s| && s[k] == c;
    }
  }

  lemma AllSpaceMembers(p: string)
    requires AllSpace(p)
    ensures forall c :: c in p ==> IsSpace(c)
  {
    forall c | c in p
      ensures IsSpace(c)
    {
      var k :| 0 <= k < |p| && p[k] == c;
    }
  }

  lemma NumeralCharacters(t: string)
    requires Numeral(t).Some?
    ensures forall c :: c in t ==> IsDigit(c) || c == '+' || c == '-' || c == '_'
  {
    NumeralIndices(t);
    forall c | c in t
      ensures IsDigit(c) || c == '+' || c == '-' || c == '_'
    {
      var k :| 0 <= k < |t| && t[k] == c;
    }
  }

  lemma NumeralIndices(t: string)
    requires Numeral(t).Some?
    ensures forall k :: 0 <= k < |t| ==> IsDigit(t[k]) || t[k] == '+' || t[k] == '-' || t[k] == '_'
  {
    if |t| > 0 && (t[0] == '+' || t[0] == '-') {
      forall k | 1 <= k < |t|
        ensures IsDigit(t[k]) || t[k] == '_'
      {
        assert t[1..][k - 1] == t[k];
      }
    }
  }

  /** A numeral with its whitespace already removed: an optional sign, then
      a digit run. */
  function Numeral(t: string): Option<int>
  {
    if |t| > 0 && (t[0] == '+' || t[0] == '-') then
      if IsDigitRun(t[1..]) then
        var v: int := RunValue(t[1..]);
        Some(if t[0] == '-' then -v else v)
      else None
    else if IsDigitRun(t) then Some(RunValue(t))
    else None
  }

  /** The shortest decimal digits of `n`. */
  function Decimal(n: nat): (r: string)
    ensures |r| > 0 && AllDigits(r)
    ensures DigitsValue(r) == n
  {
    if n < 10 then [DigitChar(n)]
    else
      var r := Decimal(n / 10) + [DigitChar(n % 10)];
      assert r[..|r| - 1] == Decimal(n / 10);
      r
  }

  /** `str(n)` for an integer: a minus sign before the digits when negative. */
  function Show(n: int): (r: string)
    ensures |r| > 0
    ensures forall c :: c in r ==> c == '-' || IsDigit(c)
    ensures r[0] == '-' <==> n < 0
  {
    if n < 0 then "-" + Decimal(-n) else Decimal(n)
  }

  lemma DecimalIsRun(n: nat)
    ensures IsDigitRun(Decimal(n))
    ensures RunValue(Decimal(n)) == n
  {
    var d := Decimal(n);
    assert forall i :: 0 <= i < |d| ==> d[i] != '_';
    RemoveAbsentChar(d, '_');
  }

  lemma ShowStripped(n: int)
    ensures Stripped(Show(n))
  {
    var t := Show(n);
    assert t[0] in t && t[|t| - 1] in t;
    assert t[0] == '-' || IsDigit(t[0]);
    assert t[|t| - 1] == '-' || IsDigit(t[|t| - 1]);
  }

  lemma NumeralShow(n: int)
    ensures Numeral(Show(n)) == Some(n)
  {
    if n < 0 {
      NumeralShowNegative(n);
    } else {
      NumeralShowNatural(n);
    }
  }

  lemma NumeralShowNegative(n: int)
    requires n < 0
    ensures Numeral(Show(n)) == Some(n)
  {
    var d := Decimal(-n);
    assert Show(n) == "-" + d;
    DecimalIsRun(-n);
    NegatedRun(d);
  }

  /** A minus sign before a digit run negates its value. */
  lemma NegatedRun(d: string)
    requires IsDigitRun(d)
    ensures Numeral("-" + d) == Some(-(RunValue(d) as int))
  {
    assert ("-" + d)[1..] == d;
  }

  lemma NumeralShowNatural(n: nat)
    ensures Numeral(Show(n)) == Some(n)
  {
    var t := Show(n);
    DecimalIsRun(n);
    assert IsDigit(t[0]);
  }

  /** `int()` reads back every integer `str()` writes. */
  lemma PyIntShow(n: int)
    ensures PyInt(Show(n)) == Some(n)
  {
    ShowStripped(n);
    StripStripped(Show(n));
    NumeralShow(n);
    ShowHasNoSeparator(n);
  }

  lemma ShowHasNoSeparator(n: int)
    ensures !HasInfoSeparator(Show(n))
  {
    var t := Show(n);
    forall k | 0 <= k < |t|
      ensures t[k] !in InfoSeparators
    {
      assert t[k] in t;
    }
  }

  /** A blank between two non-blank characters makes `int()` fail. */
  lemma InnerBlankUnreadable(t: string)
    requires Stripped(t) && ' ' in t
    ensures PyInt(t) == None
  {
    StripStripped(t);
    NumeralOfBlank(t);
  }

  lemma NumeralOfBlank(t: string)
    requires ' ' in t
    ensures Numeral(t) == None
  {
    BlankNoRun(t);
    if |t| > 0 && (t[0] == '+' || t[0] == '-') {
      assert ' ' in t[1..] by {
        assert t == [t[0]] + t[1..];
      }
      BlankNoRun(t[1..]);
    }
  }

  lemma BlankNoRun(b: string)
    requires ' ' in b
    ensures !IsDigitRun(b)
  {
    var i :| 0 <= i < |b| && b[i] == ' ';
    assert !IsDigit(b[i]) && b[i] != '_';
  }

  /** `int()` tolerates a trailing whitespace character other than an
      information separator. */
  lemma PyIntIgnoresTrailingSpace(s: string, c: char)
    requires IsIntSpace(c)
    ensures PyInt(s + [c]) == PyInt(s)
  {
    StripIgnoresTrailingSpace(s, c);
    SeparatorSnoc(s, c);
  }

  /** `int()` tolerates a leading whitespace character other than an
      information separator. */
  lemma PyIntIgnoresLeadingSpace(c: char, s: string)
    requires IsIntSpace(c)
    ensures PyInt([c] + s) == PyInt(s)
  {
    StripIgnoresLeadingSpace(c, s);
    SeparatorCons(c, s);
  }

  lemma SeparatorCons(c: char, s: string)
    requires c !in InfoSeparators
    ensures HasInfoSeparator([c] + s) == HasInfoSeparator(s)
  {
    assert forall x :: x in [c] + s <==> x == c || x in s;
  }

  lemma SeparatorSnoc(s: string, c: char)
    requires c !in InfoSeparators
    ensures HasInfoSeparator(s + [c]) == HasInfoSeparator(s)
  {
    assert forall x :: x in s + [c] <==> x in s || x == c;
  }

  /** An information separator anywhere makes `int()` fail, even where
      `strip()` would remove it. */
  lemma InfoSeparatorUnreadable(s: string, c: char)
    requires c in InfoSeparators
    ensures PyInt([c] + s) == None && PyInt(s + [c]) == None
  {
    assert ([c] + s)[0] == c;
    assert (s + [c])[|s|] == c;
  }
}

=== FILE: polling.dfy ===
/** One pass of the bot over the messages fetched from the group (app.py,
    lines 39-78): which messages get a reply, with what text the reply is
    generated from, and which message id the next fetch starts after. */
module Polling {
  import opened Text

  /** A fetched message. `text` is None when the message carries no text. */
  datatype Message = Message(id: string, senderType: string, text: Option<string>)

  /** A reply: the text the reply is generated from, and the message it
      answers. The generated wording itself is not part of this model. */
  datatype Reply = Reply(prompt: string, message: Message)

  /** The command a bot's message must start with to be answered. */
  const CommandPrefix: string := "<createreminder> "

  predicate FromBot(m: Message) {
    m.senderType == "bot"
  }

  /** A message that ends the pass before any later message is looked at:
      one without text (lowering it fails and the pass is abandoned), and
      one from a person (answered, then the loop breaks). */
  predicate EndsPass(m: Message) {
    m.text.None? || !FromBot(m)
  }

  predicate Halts(ms: seq<Message>) {
    exists i :: 0 <= i < |ms| && EndsPass(ms[i])
  }

  /** A message with text that the bot answers: any person's message, and a
      bot's message whose lower-cased text starts with the command. */
  predicate Answered(m: Message)
    requires m.text.Some?
  {
    !FromBot(m) || StartsWith(Lower(m.text.value), CommandPrefix)
  }

  /** The text a reply is generated from: a bot's command as written, a
      person's message lower-cased. */
  function Prompt(m: Message): string
    requires m.text.Some?
  {
    if FromBot(m) then m.text.value else Lower(m.text.value)
  }

  /** The replies of a pass, message by message. */
  function Replies(ms: seq<Message>): (rs: seq<Reply>)
    ensures |rs| <= |ms|
  {
    if |ms| == 0 then []
    else
      var m := ms[0];
      if m.text.None? then []
      else if !Answered(m) then Replies(ms[1..])
      else if FromBot(m) then [Reply(Prompt(m), m)] + Replies(ms[1..])
      else [Reply(Prompt(m), m)]
  }

  /** The `since_id` after a pass: the id of the last message answered, or
      the previous one when nothing was answered. */
  function SinceAfter(since: Option<string>, rs: seq<Reply>): (r: Option<string>)
    ensures |rs| > 0 ==> r == Some(rs[|rs| - 1].message.id)
    ensures |rs| == 0 ==> r == since
  {
    if |rs| == 0 then since else Some(rs[|rs| - 1].message.id)
  }

  /** The pass as the loop runs it: walk the messages, answer each bot
      command, answer the first person's message and stop there; a message
      without text abandons the rest of the pass. */
  method Poll(ms: seq<Message>, since: Option<string>)
    returns (replies: seq<Reply>, since': Option<string>)
    ensures replies == Replies(ms)
    ensures since' == SinceAfter(since, replies)
  {
    replies := [];
    since' := since;
    var i := 0;
    while i < |ms|
      invariant 0 <= i <= |ms|
      invariant !Halts(ms[..i])
      invariant replies == Replies(ms[..i])
      invariant since' == SinceAfter(since, replies)
    {
      var m := ms[i];
      assert ms[..i + 1] == ms[..i] + [m];
      AppendAfterRunning(ms[..i], [m]);
      if m.text.None? {
        assert ms == ms[..i + 1] + ms[i + 1..];
        AppendAfterHalt(ms[..i + 1], ms[i + 1..]);
        return;
      }
      var lowered := Lower(m.text.value);
      if m.senderType != "bot" || StartsWith(lowered, CommandPrefix) {
        if m.senderType == "bot" {
          replies := replies + [Reply(m.text.value, m)];
          since' := Some(m.id);
        } else {
          replies := replies + [Reply(lowered, m)];
          since' := Some(m.id);
          assert ms == ms[..i + 1] + ms[i + 1..];
          AppendAfterHalt(ms[..i + 1], ms[i + 1..]);
          return;
        }
      }
      i := i + 1;
    }
    assert ms[..i] == ms;
  }

  // ---------------------------------------------------------------- properties

  /** While no message has ended the pass, the replies to more messages are
      the replies so far followed by theirs. */
  lemma {:induction false} AppendAfterRunning(pre: seq<Message>, post: seq<Message>)
    requires !Halts(pre)
    ensures Replies(pre + post) == Replies(pre) + Replies(post)
    decreases |pre|
  {
    if |pre| == 0 {
      assert pre + post == post;
    } else {
      assert !EndsPass(pre[0]);
      assert (pre + post)[1..] == pre[1..] + post;
      assert !Halts(pre[1..]) by {
        forall i | 0 <= i < |pre[1..]|
          ensures !EndsPass(pre[1..][i])
        {
          assert pre[1..][i] == pre[i + 1];
        }
      }
      AppendAfterRunning(pre[1..], post);
    }
  }

  /** Once a message has ended the pass, later messages change nothing. */
  lemma {:induction false} AppendAfterHalt(pre: seq<Message>, post: seq<Message>)
    requires Halts(pre)
    ensures Replies(pre + post) == Replies(pre)
    decreases |pre|
  {
    var i :| 0 <= i < |pre| && EndsPass(pre[i]);
    assert (pre + post)[0] == pre[0];
    if i > 0 && !EndsPass(pre[0]) {
      assert pre[1..][i - 1] == pre[i];
      assert (pre + post)[1..] == pre[1..] + post;
      AppendAfterHalt(pre[1..], post);
    }
  }

  /** Every reply answers one of the fetched messages, one that is answered,
      with the text it is generated from. */
  lemma {:induction false} RepliesAnswerMessages(ms: seq<Message>)
    ensures forall k :: 0 <= k < |Replies(ms)| ==>
              var r := Replies(ms)[k];
              r.message in ms && r.message.text.Some? && Answered(r.message)
              && r.prompt == Prompt(r.message)
    decreases |ms|
  {
    if |ms| > 0 {
      RepliesAnswerMessages(ms[1..]);
      assert forall m :: m in ms[1..] ==> m in ms;
    }
  }

  /** Only the last reply of a pass can answer a person: a person's message
      ends the pass. */
  lemma {:induction false} PersonAnsweredLast(ms: seq<Message>)
    ensures forall k :: 0 <= k < |Replies(ms)| - 1 ==> FromBot(Replies(ms)[k].message)
    decreases |ms|
  {
    if |ms| > 0 && ms[0].text.Some? && FromBot(ms[0]) {
      PersonAnsweredLast(ms[1..]);
    }
  }

  /** A person's message reached before the pass has ended is answered,
      lower-cased, and is the last message answered. */
  lemma PersonAnswered(pre: seq<Message>, m: Message, post: seq<Message>)
    requires !Halts(pre) && m.text.Some? && !FromBot(m)
    ensures Replies(pre + [m] + post) == Replies(pre) + [Reply(Lower(m.text.value), m)]
  {
    assert pre + [m] + post == pre + ([m] + post);
    AppendAfterRunning(pre, [m] + post);
    assert ([m] + post)[0] == m;
  }

  /** Every message the bot answers that is reached before the pass has
      ended gets a reply, whatever follows it. */
  lemma ReachedAnswered(pre: seq<Message>, m: Message, post: seq<Message>)
    requires !Halts(pre) && m.text.Some? && Answered(m)
    ensures Replied(Replies(pre + [m] + post), m)
  {
    assert pre + [m] + post == pre + ([m] + post);
    AppendAfterRunning(pre, [m] + post);
    assert ([m] + post)[0] == m;
    var rs := Replies(pre + [m] + post);
    assert rs[|Replies(pre)|] == Reply(Prompt(m), m);
  }

  /** Some reply of `rs` answers `m`. */
  predicate Replied(rs: seq<Reply>, m: Message) {
    exists k :: 0 <= k < |rs| && rs[k].message == m
  }

  /** A pass over bot messages with text answers exactly their commands. */
  lemma {:induction false} BotCommandsAllAnswered(ms: seq<Message>)
    requires forall k :: 0 <= k < |ms| ==> ms[k].text.Some? && FromBot(ms[k])
    ensures forall m :: m in ms ==> (Answered(m) <==> Replied(Replies(ms), m))
    decreases |ms|
  {
    if |ms| > 0 {
      var first := ms[0];
      var rest := Replies(ms[1..]);
      BotCommandsAllAnswered(ms[1..]);
      assert first !in ms[1..] || Answered(first) == Replied(rest, first);
      if Answered(first) {
        assert Replies(ms) == [Reply(Prompt(first), first)] + rest;
        RepliedCons(Reply(Prompt(first), first), rest);
      } else {
        assert Replies(ms) == rest;
        assert !Replied(rest, first) by {
          RepliesAnswerMessages(ms[1..]);
        }
      }
      assert forall m :: m in ms ==> m == first || m in ms[1..];
    }
  }

  /** A reply placed in front answers its own message besides those already
      answered. */
  lemma RepliedCons(r: Reply, rs: seq<Reply>)
    ensures forall m :: Replied([r] + rs, m) <==> r.message == m || Replied(rs, m)
  {
    forall m | Replied(rs, m)
      ensures Replied([r] + rs, m)
    {
      var k :| 0 <= k < |rs| && rs[k].message == m;
      assert ([r] + rs)[k + 1] == rs[k];
    }
    assert ([r] + rs)[0] == r;
  }
}

=== FILE: scheduler.dfy ===
/** The task scheduler: the list of pending tasks, the operations that add
    and remove tasks, and one pass of the notification loop. Each operation
    and each pass is taken as atomic. */
module Scheduler {
  import opened Text
  import opened Tasks

  /** What one dispatch hands to the SMS relay: the message text and the
      number, which may be absent. */
  datatype Notification = Notification(message: string, number: Option<string>)

  /** The scheduler's state: `tasks` is the live list, `buffer` the list the
      loop copies it into before a pass. */
  datatype Scheduler = Scheduler(tasks: seq<Task>, buffer: seq<Task>)

  /** Between passes the copy is empty. */
  predicate Idle(s: Scheduler) {
    s.buffer == []
  }

  function Initial(): (s: Scheduler)
    ensures Idle(s) && s.tasks == []
  {
    Scheduler([], [])
  }

  function Notify(t: Task): Notification {
    Notification(Tts(t), t.phone)
  }

  // ---------------------------------------------------------------- first occurrence

  function FirstIndex(xs: seq<Task>, x: Task): (i: nat)
    requires x in xs
    ensures i < |xs| && xs[i] == x
    ensures forall m :: 0 <= m < i ==> xs[m] != x
  {
    if xs[0] == x then 0 else FirstIndex(xs[1..], x) + 1
  }

  /** `list.remove(x)`: the first occurrence of `x` is taken out. */
  function RemoveFirst(xs: seq<Task>, x: Task): (r: seq<Task>)
    requires x in xs
    ensures r == xs[..FirstIndex(xs, x)] + xs[FirstIndex(xs, x) + 1..]
  {
    if xs[0] == x then xs[1..]
    else
      var j := FirstIndex(xs[1..], x);
      assert [xs[0]] + xs[1..][..j] == xs[..j + 1];
      assert xs[1..][j + 1..] == xs[j + 2..];
      [xs[0]] + RemoveFirst(xs[1..], x)
  }

  lemma RemoveFirstCount(xs: seq<Task>, x: Task)
    requires x in xs
    ensures multiset(RemoveFirst(xs, x)) == multiset(xs) - multiset{x}
  {
    var i := FirstIndex(xs, x);
    var a, b := xs[..i], xs[i + 1..];
    assert xs == a + [x] + b;
    assert multiset(xs) == multiset(a) + multiset{x} + multiset(b);
    assert RemoveFirst(xs, x) == a + b;
  }

  /** Removing a task that only occurs after a stretch without it leaves
      the stretch in front and the rest behind. */
  lemma RemoveAfterStretch(k: seq<Task>, x: Task, rest: seq<Task>)
    requires x !in k
    ensures RemoveFirst(k + [x] + rest, x) == k + rest
  {
    var xs := k + [x] + rest;
    assert xs[|k|] == x;
    assert forall m :: 0 <= m < |k| ==> xs[m] == k[m] != x;
    var i := FirstIndex(xs, x);
    assert i == |k|;
    assert xs[..i] == k;
    assert xs[i + 1..] == rest;
  }

  // ---------------------------------------------------------------- list operations

  /** `schedule(task)`: the task goes to the end of the list. */
  function Schedule(s: Scheduler, t: Task): (r: Scheduler)
    ensures |r.tasks| == |s.tasks| + 1 && r.tasks[..|s.tasks|] == s.tasks
    ensures r.tasks[|s.tasks|] == t
    ensures r.buffer == s.buffer
  {
    Scheduler(s.tasks + [t], s.buffer)
  }

  /** `remove(task)`: None is the ValueError raised when the task is not in
      the list; otherwise only its first occurrence is gone. */
  function Remove(s: Scheduler, t: Task): (r: Option<Scheduler>)
    ensures r.Some? <==> t in s.tasks
    ensures r.Some? ==>
              && var i := FirstIndex(s.tasks, t);
                 r.value.tasks == s.tasks[..i] + s.tasks[i + 1..]
                 && multiset(r.value.tasks) == multiset(s.tasks) - multiset{t}
                 && r.value.buffer == s.buffer
  {
    if t in s.tasks then
      RemoveFirstCount(s.tasks, t);
      Some(Scheduler(RemoveFirst(s.tasks, t), s.buffer))
    else None
  }

  /** `remove_all()`: the list is cleared and the call reports success. */
  function RemoveAll(s: Scheduler): (r: (Scheduler, bool))
    ensures r.0.tasks == [] && r.0.buffer == s.buffer
    ensures r.1
  {
    (Scheduler([], s.buffer), true)
  }

  /** Cancelling a task just scheduled, and nowhere else in the list,
      restores the list as it was. */
  lemma ScheduleThenRemove(s: Scheduler, t: Task)
    requires t !in s.tasks
    ensures Remove(Schedule(s, t), t) == Some(s)
  {
    assert s.tasks + [t] == s.tasks + [t] + [];
    RemoveAfterStretch(s.tasks, t, []);
    assert s.tasks + [] == s.tasks;
  }

  // ---------------------------------------------------------------- one pass

  /** The tasks of `ts` due at `now`, in list order. */
  function Due(ts: seq<Task>, now: Minute): (r: seq<Task>)
    ensures |r| <= |ts|
  {
    if |ts| == 0 then []
    else
      var last := ts[|ts| - 1];
      Due(ts[..|ts| - 1], now) + (if last.notifTime == now then [last] else [])
  }

  /** The tasks of `ts` not due at `now`, in list order. */
  function Waiting(ts: seq<Task>, now: Minute): (r: seq<Task>)
    ensures |r| <= |ts|
  {
    if |ts| == 0 then []
    else
      var last := ts[|ts| - 1];
      Waiting(ts[..|ts| - 1], now) + (if last.notifTime != now then [last] else [])
  }

  /** Exactly the tasks due at `now` are dispatched. */
  lemma {:induction false} DueMembers(ts: seq<Task>, now: Minute)
    ensures forall t :: t in Due(ts, now) <==> t in ts && t.notifTime == now
    decreases |ts|
  {
    if |ts| > 0 {
      DueMembers(ts[..|ts| - 1], now);
      assert ts == ts[..|ts| - 1] + [ts[|ts| - 1]];
    }
  }

  /** Exactly the tasks not due at `now` are kept. */
  lemma {:induction false} WaitingMembers(ts: seq<Task>, now: Minute)
    ensures forall t :: t in Waiting(ts, now) <==> t in ts && t.notifTime != now
    decreases |ts|
  {
    if |ts| > 0 {
      WaitingMembers(ts[..|ts| - 1], now);
      assert ts == ts[..|ts| - 1] + [ts[|ts| - 1]];
    }
  }

  function Notices(ts: seq<Task>): (ns: seq<Notification>)
    ensures |ns| == |ts|
  {
    if |ts| == 0 then [] else Notices(ts[..|ts| - 1]) + [Notify(ts[|ts| - 1])]
  }

  lemma NoticesElement(ts: seq<Task>, k: nat)
    requires k < |ts|
    ensures Notices(ts)[k] == Notify(ts[k])
    decreases |ts|
  {
    if k < |ts| - 1 {
      NoticesElement(ts[..|ts| - 1], k);
    }
  }

  /** How the dispatched and the kept tasks grow by one more task. */
  lemma DueStep(ts: seq<Task>, t: Task, now: Minute)
    ensures t.notifTime == now ==> Due(ts + [t], now) == Due(ts, now) + [t]
    ensures t.notifTime != now ==> Due(ts + [t], now) == Due(ts, now)
  {
    assert (ts + [t])[..|ts|] == ts;
    assert Due(ts, now) + [] == Due(ts, now);
  }

  lemma WaitingStep(ts: seq<Task>, t: Task, now: Minute)
    ensures Waiting(ts + [t], now) == Waiting(ts, now) + (if t.notifTime != now then [t] else [])
  {
    assert (ts + [t])[..|ts|] == ts;
  }

  lemma NoticesStep(ts: seq<Task>, t: Task)
    ensures Notices(ts + [t]) == Notices(ts) + [Notify(t)]
  {
    assert (ts + [t])[..|ts|] == ts;
  }

  /** The live list after the pass has handled one more copied task `t`. */
  lemma LiveStep(done: seq<Task>, t: Task, rest: seq<Task>, now: Minute)
    ensures t.notifTime == now ==>
              t in Waiting(done, now) + [t] + rest
              && RemoveFirst(Waiting(done, now) + [t] + rest, t) == Waiting(done + [t], now) + rest
    ensures t.notifTime != now ==>
              Waiting(done, now) + [t] + rest == Waiting(done + [t], now) + rest
  {
    if t.notifTime == now {
      LiveStepDue(done, t, rest, now);
    } else {
      WaitingStep(done, t, now);
    }
  }

  lemma LiveStepDue(done: seq<Task>, t: Task, rest: seq<Task>, now: Minute)
    requires t.notifTime == now
    ensures t in Waiting(done, now) + [t] + rest
    ensures RemoveFirst(Waiting(done, now) + [t] + rest, t) == Waiting(done + [t], now) + rest
  {
    var w := Waiting(done, now);
    WaitingStep(done, t, now);
    assert w + [] == w;
    WaitingMembers(done, now);
    assert t !in w;
    RemoveAfterStretch(w, t, rest);
  }

  /** The loop body for one copied task `t`: when due, dispatch it and
      take it out of the live list. */
  method Handle(live: seq<Task>, sent: seq<Notification>, t: Task, now: Minute,
                ghost done: seq<Task>, ghost rest: seq<Task>)
    returns (live': seq<Task>, sent': seq<Notification>)
    requires live == Waiting(done, now) + [t] + rest
    requires sent == Notices(Due(done, now))
    ensures live' == Waiting(done + [t], now) + rest
    ensures sent' == Notices(Due(done + [t], now))
  {
    DueStep(done, t, now);
    LiveStep(done, t, rest, now);
    live', sent' := live, sent;
    if t.notifTime == now {
      NoticesStep(Due(done, now), t);
      sent' := sent + [Notify(t)];
      live' := RemoveFirst(live, t);
    }
  }

  /** One pass of `manage_notifications` at the minute `now`: copy the
      list, dispatch and remove each copied task due at `now`, empty the
      copy. `now` is the current time already cut to the minute. */
  method Tick(s: Scheduler, now: Minute) returns (r: Scheduler, sent: seq<Notification>)
    requires Idle(s)
    ensures Idle(r)
    ensures r.tasks == Waiting(s.tasks, now)
    ensures sent == Notices(Due(s.tasks, now))
  {
    var buffer := s.buffer + s.tasks;
    var live := s.tasks;
    sent := [];
    ghost var done: seq<Task> := [];
    ghost var rest := buffer;
    var i := 0;
    while i < |buffer|
      invariant 0 <= i <= |buffer| && |done| == i && done + rest == buffer
      invariant live == Waiting(done, now) + rest
      invariant sent == Notices(Due(done, now))
    {
      var t := buffer[i];
      assert rest[0] == (done + rest)[i] == t;
      assert rest == [t] + rest[1..];
      live, sent := Handle(live, sent, t, now, done, rest[1..]);
      done, rest := done + [t], rest[1..];
      i := i + 1;
    }
    assert done == s.tasks;
    r := Scheduler(live, []);
  }

  // ---------------------------------------------------------------- properties of a pass

  /** Every task in the list is either dispatched or kept, exactly once. */
  lemma {:induction false} DueWaitingPartition(ts: seq<Task>, now: Minute)
    ensures multiset(Due(ts, now)) + multiset(Waiting(ts, now)) == multiset(ts)
    decreases |ts|
  {
    if |ts| > 0 {
      var init := ts[..|ts| - 1];
      var last := ts[|ts| - 1];
      var d, w := Due(init, now), Waiting(init, now);
      DueWaitingPartition(init, now);
      if last.notifTime == now {
        assert Due(ts, now) == d + [last];
        assert Waiting(ts, now) == w + [];
        PartitionSnoc(d, w, ts);
      } else {
        assert Due(ts, now) == d + [];
        assert Waiting(ts, now) == w + [last];
        PartitionSnoc(w, d, ts);
      }
    }
  }

  /** Adding the last element of a list to one side of a split of the rest
      splits the whole list. */
  lemma PartitionSnoc<T>(a: seq<T>, b: seq<T>, ts: seq<T>)
    requires |ts| > 0
    requires multiset(a) + multiset(b) == multiset(ts[..|ts| - 1])
    ensures multiset(a + [ts[|ts| - 1]]) + multiset(b + []) == multiset(ts)
    ensures multiset(b + []) + multiset(a + [ts[|ts| - 1]]) == multiset(ts)
  {
    assert b + [] == b;
    assert ts == ts[..|ts| - 1] + [ts[|ts| - 1]];
  }

  /** A second pass in the same minute finds nothing due: the loop runs
      several times a minute and still dispatches each task once. */
  lemma {:induction false} SecondPassSendsNothing(ts: seq<Task>, now: Minute)
    ensures Due(Waiting(ts, now), now) == []
  {
    var w := Waiting(ts, now);
    WaitingMembers(ts, now);
    assert forall k :: 0 <= k < |w| ==> w[k] in w;
    NoneDue(w, now);
  }

  lemma {:induction false} NoneDue(ts: seq<Task>, now: Minute)
    requires forall k :: 0 <= k < |ts| ==> ts[k].notifTime != now
    ensures Due(ts, now) == []
    decreases |ts|
  {
    if |ts| > 0 {
      NoneDue(ts[..|ts| - 1], now);
    }
  }

  /** `remove_all()` followed by the next pass of the loop: the clear
      succeeds, the pass sends nothing, and the scheduler is back to its
      initial state. */
  method ClearThenTick(s: Scheduler, now: Minute)
    returns (r: Scheduler, sent: seq<Notification>, cleared: bool)
    requires Idle(s)
    ensures cleared && sent == [] && r == Initial()
  {
    var c := RemoveAll(s);
    cleared := c.1;
    r, sent := Tick(c.0, now);
  }

  /** Tasks due at other minutes are unaffected by a pass, in order. */
  lemma {:induction false} WaitingKeepsOrder(ts: seq<Task>, now: Minute)
    requires forall k :: 0 <= k < |ts| ==> ts[k].notifTime != now
    ensures Waiting(ts, now) == ts
    decreases |ts|
  {
    if |ts| > 0 {
      WaitingKeepsOrder(ts[..|ts| - 1], now);
      assert ts == ts[..|ts| - 1] + [ts[|ts| - 1]];
    }
  }
}

=== FILE: settings.dfy ===
/** How the bot reads its settings at start-up (app.py, lines 11-28): every
    line of the settings file that contains `=` contributes one value, in
    file order, and the first six values are, in this order, the access
    token, the bot id, the group id, the Textbelt endpoint, the bot name and
    the group name. */
module Settings {
  import opened Text

  datatype Config = Config(accessToken: string, botId: string, groupId: string,
                           textbeltUrl: string, botName: string, groupName: string)

  /** The value one settings line carries: what follows its first `=`, with
      every single quote deleted, cut at the first `#`, and stripped of
      surrounding whitespace. */
  function ValueOf(line: string): (v: string)
    requires '=' in line
    ensures '\'' !in v && '#' !in v
    ensures Stripped(v)
  {
    var raw := CutAt(RemoveChar(AfterFirst(line, '='), '\''), '#');
    StripKeepsCharacters(raw);
    Strip(raw)
  }

  /** A value the settings file can carry unchanged: no single quote, no
      `#`, no surrounding whitespace. */
  predicate Clean(v: string) {
    '\'' !in v && '#' !in v && Stripped(v)
  }

  /** The lines that contain `=`, in file order: the only lines that carry
      a value. */
  function Assignments(lines: seq<string>): (a: seq<string>)
    ensures |a| <= |lines|
    ensures forall k :: 0 <= k < |a| ==> '=' in a[k]
  {
    if |lines| == 0 then []
    else (if '=' in lines[0] then [lines[0]] else []) + Assignments(lines[1..])
  }

  /** The value a line carries; only lines with `=` are ever read for one,
      so the empty text for the others is never used. */
  function LineValue(line: string): string {
    if '=' in line then ValueOf(line) else []
  }

  /** The values of the lines that contain `=`, in order. */
  function ValuesOf(lines: seq<string>): (vs: seq<string>)
    ensures |vs| == |Assignments(lines)|
  {
    Map(Assignments(lines), LineValue)
  }

  /** Every value read is clean, whatever the file holds. */
  lemma ValuesClean(lines: seq<string>)
    ensures forall k :: 0 <= k < |ValuesOf(lines)| ==> Clean(ValuesOf(lines)[k])
  {
    var a := Assignments(lines);
    forall k | 0 <= k < |a|
      ensures Clean(ValuesOf(lines)[k])
    {
      assert ValuesOf(lines)[k] == LineValue(a[k]) == ValueOf(a[k]);
    }
  }

  /** The values read from a whole settings file, opened in text mode. */
  function ConfigValues(text: string): seq<string> {
    ValuesOf(FileLines(text))
  }

  /** The settings the bot starts with, or None when the file yields fewer
      than six values: the start-up then fails on an index out of range. */
  function LoadSettings(values: seq<string>): (c: Option<Config>)
    ensures c.Some? <==> |values| >= 6
    ensures c.Some? ==> Fields(c.value) == values[..6]
  {
    if |values| < 6 then None
    else Some(Config(values[0], values[1], values[2], values[3], values[4], values[5]))
  }

  /** The settings as the list the values are read into. */
  function Fields(c: Config): (fs: seq<string>)
    ensures |fs| == 6
  {
    [c.accessToken, c.botId, c.groupId, c.textbeltUrl, c.botName, c.groupName]
  }

  /** The settings loaded from a settings file: whatever the file holds,
      each setting the bot starts with is clean. */
  function Load(text: string): (c: Option<Config>)
    ensures c.Some? ==> forall k :: 0 <= k < 6 ==> Clean(Fields(c.value)[k])
  {
    var vs := ConfigValues(text);
    ValuesClean(FileLines(text));
    assert forall k :: 0 <= k < 6 && |vs| >= 6 ==> vs[..6][k] == vs[k];
    LoadSettings(vs)
  }

  // ---------------------------------------------------------------- properties

  /** A value holds no character its line does not. */
  lemma ValueOfKeepsOut(line: string, c: char)
    requires '=' in line && c !in line
    ensures c !in ValueOf(line)
  {
    var after := AfterFirst(line, '=');
    assert forall x :: x in after ==> x in line;
    var removed := RemoveChar(after, '\'');
    RemoveCharMembers(after, '\'');
    var cut := CutAt(removed, '#');
    assert forall x :: x in cut ==> x in removed;
    StripKeepsCharacters(cut);
  }

  /** Reading two runs of lines one after the other reads their values one
      after the other. */
  lemma ValuesOfAppend(a: seq<string>, b: seq<string>)
    ensures ValuesOf(a + b) == ValuesOf(a) + ValuesOf(b)
  {
    AssignmentsAppend(a, b);
    MapAppend(Assignments(a), Assignments(b), LineValue);
  }

  lemma {:induction false} AssignmentsAppend(a: seq<string>, b: seq<string>)
    ensures Assignments(a + b) == Assignments(a) + Assignments(b)
    decreases |a|
  {
    if |a| > 0 {
      assert (a + b)[1..] == a[1..] + b;
      AssignmentsAppend(a[1..], b);
    } else {
      assert a + b == b;
    }
  }

  /** When every line has an `=`, the k-th value comes from the k-th line. */
  lemma ValuesOfAssignments(lines: seq<string>)
    requires forall k :: 0 <= k < |lines| ==> '=' in lines[k]
    ensures |ValuesOf(lines)| == |lines|
    ensures forall k :: 0 <= k < |lines| ==> ValuesOf(lines)[k] == ValueOf(lines[k])
  {
    AllAssignments(lines);
    forall k | 0 <= k < |lines|
      ensures ValuesOf(lines)[k] == ValueOf(lines[k])
    {
      assert ValuesOf(lines)[k] == LineValue(lines[k]);
    }
  }

  lemma {:induction false} AllAssignments(lines: seq<string>)
    requires forall k :: 0 <= k < |lines| ==> '=' in lines[k]
    ensures Assignments(lines) == lines
    decreases |lines|
  {
    if |lines| > 0 {
      AllAssignments(lines[1..]);
      assert lines == [lines[0]] + lines[1..];
    }
  }

  /** A line without `=` contributes nothing. */
  lemma ValuesOfSkipsComment(line: string, rest: seq<string>)
    requires '=' !in line
    ensures ValuesOf([line] + rest) == ValuesOf(rest)
  {
    assert ([line] + rest)[1..] == rest;
    assert Assignments([line] + rest) == [] + Assignments(rest);
  }

  /** Everything after the first `=` is the value's: a later `=` belongs to
      it. */
  lemma ValueOfAfterFirstEquals(key: string, rest: string)
    requires '=' !in key
    ensures ValueOf(key + "=" + rest) == ValueOf("=" + rest)
  {
    AfterFirstOfConcat(key, '=', rest);
    AfterFirstOfConcat([], '=', rest);
    assert [] + ['='] + rest == "=" + rest;
  }

  /** A clean value quoted and followed by blanks and a comment reads back
      as itself; nothing else does. */
  lemma QuotedValueReadsBack(key: string, v: string, pad: string, comment: string)
    requires '=' !in key
    requires AllSpace(pad) && '\'' !in pad
    requires |comment| > 0 && comment[0] == '#' && '\'' !in comment
    ensures ValueOf(key + " = '" + v + "'" + pad + comment) == v <==> Clean(v)
  {
    if Clean(v) {
      var line := key + " = '" + v + "'" + pad + comment;
      var rest := pad + comment;
      assert line == key + " = '" + v + "'" + rest;
      QuotedTail(key, v, rest);
      QuotesRemoved(v, rest);
      QuotedValueCut(v, pad, comment);
      ValueOfSteps(line, " '" + v + "'" + rest, " " + v + rest, " " + v + pad);
      assert AllSpace(" ");
      StripSurrounded(" ", v, pad);
    }
  }

  lemma QuotedValueCut(v: string, pad: string, comment: string)
    requires '#' !in v && AllSpace(pad)
    requires |comment| > 0 && comment[0] == '#'
    ensures CutAt(" " + v + (pad + comment), '#') == " " + v + pad
  {
    assert '#' !in pad by {
      forall k | 0 <= k < |pad|
        ensures pad[k] != '#'
      {
        assert IsSpace(pad[k]);
      }
    }
    assert " " + v + (pad + comment) == (" " + v + pad) + comment;
    CommentCut(" " + v + pad, comment);
  }

  /** Quotes do not protect a `#`: they are deleted first, so the value
      ends where a quoted `#` stood. */
  lemma QuotedHashStartsComment(key: string, v: string, after: string)
    requires '=' !in key
    requires Clean(v)
    ensures ValueOf(key + " = '" + v + "#" + after) == v
  {
    var line := key + " = '" + v + "#" + after;
    var w := v + "#" + after;
    var unquoted := " " + RemoveChar(w, '\'');
    assert AfterFirst(line, '=') == " '" + w by {
      assert line == key + " = '" + w;
      QuotedHashTail(key, w);
    }
    assert RemoveChar(" '" + w, '\'') == unquoted by {
      QuotedHashTail(key, w);
    }
    assert CutAt(unquoted, '#') == " " + v by {
      QuotedHashCut(v, after);
    }
    ValueOfSteps(line, " '" + w, unquoted, " " + v);
    StripLeadingBlank(v);
  }

  lemma StripLeadingBlank(v: string)
    requires Stripped(v)
    ensures Strip(" " + v) == v
  {
    assert AllSpace(" ");
    assert " " + v + [] == " " + v;
    StripSurrounded(" ", v, []);
  }

  lemma QuotedHashTail(key: string, w: string)
    requires '=' !in key
    ensures AfterFirst(key + " = '" + w, '=') == " '" + w
    ensures RemoveChar(" '" + w, '\'') == " " + RemoveChar(w, '\'')
  {
    assert key + " = '" + w == key + " =" + (" '" + w);
    EqualsTail(key, " '" + w);
    assert " '" + w == " " + ['\''] + w;
    RemoveAfterClean(" ", '\'', w);
  }

  lemma QuotedHashCut(v: string, after: string)
    requires Clean(v)
    ensures CutAt(" " + RemoveChar(v + "#" + after, '\''), '#') == " " + v
  {
    var comment := "#" + RemoveChar(after, '\'');
    HashKept(v, after);
    assert " " + RemoveChar(v + "#" + after, '\'') == (" " + v) + comment;
    CommentCut(" " + v, comment);
  }

  /** The three steps of `ValueOf`, one at a time. */
  lemma ValueOfSteps(line: string, tail: string, unquoted: string, uncommented: string)
    requires '=' in line
    requires AfterFirst(line, '=') == tail
    requires RemoveChar(tail, '\'') == unquoted
    requires CutAt(unquoted, '#') == uncommented
    ensures ValueOf(line) == Strip(uncommented)
  {
  }

  lemma EqualsTail(key: string, tail: string)
    requires '=' !in key
    ensures AfterFirst(key + " =" + tail, '=') == tail
  {
    assert key + " =" + tail == (key + " ") + ['='] + tail;
    assert '=' !in key + " ";
    AfterFirstOfConcat(key + " ", '=', tail);
  }

  lemma HashKept(v: string, after: string)
    requires '\'' !in v
    ensures RemoveChar(v + "#" + after, '\'') == v + "#" + RemoveChar(after, '\'')
  {
    RemoveCharConcat(v + "#", after, '\'');
    RemoveAbsentChar(v + "#", '\'');
  }

  lemma QuotedTail(key: string, v: string, rest: string)
    requires '=' !in key
    ensures AfterFirst(key + " = '" + v + "'" + rest, '=') == " '" + v + "'" + rest
  {
    var tail := " '" + v + "'" + rest;
    assert key + " = '" + v + "'" + rest == (key + " ") + ['='] + tail;
    assert '=' !in key + " ";
    AfterFirstOfConcat(key + " ", '=', tail);
  }

  lemma QuotesRemoved(v: string, rest: string)
    requires '\'' !in v && '\'' !in rest
    ensures RemoveChar(" '" + v + "'" + rest, '\'') == " " + v + rest
  {
    assert " '" + v + "'" + rest == " " + ['\''] + v + ['\''] + rest;
    assert '\'' !in " ";
    DropTwo(" ", v, rest, '\'');
  }

  /** Deleting the two occurrences of `q` that surround `v`. */
  lemma DropTwo(a: string, v: string, rest: string, q: char)
    requires q !in a && q !in v && q !in rest
    ensures RemoveChar(a + [q] + v + [q] + rest, q) == a + v + rest
  {
    assert a + [q] + v + [q] + rest == a + [q] + (v + [q] + rest);
    RemoveAfterClean(a, q, v + [q] + rest);
    RemoveAfterClean(v, q, rest);
    RemoveAbsentChar(rest, q);
    assert a + (v + rest) == a + v + rest;
  }

  lemma RemoveAfterClean(a: string, c: char, b: string)
    requires c !in a
    ensures RemoveChar(a + [c] + b, c) == a + RemoveChar(b, c)
  {
    RemoveCharConcat(a, [c] + b, c);
    RemoveCharConcat([c], b, c);
    RemoveAbsentChar(a, c);
    assert a + [c] + b == a + ([c] + b);
    assert [c][1..] == [];
  }

  lemma CommentCut(kept: string, comment: string)
    requires '#' !in kept
    requires |comment| > 0 && comment[0] == '#'
    ensures CutAt(kept + comment, '#') == kept
  {
    CutAtAfter(kept, comment, '#');
  }
}

=== FILE: tasks.dfy ===
/** A reminder task: how its notification minute is worked out from the
    start date, the start time and a relative offset such as
    "30 minutes before", and how it is rendered as text. */
module Tasks {
  import opened Text
  import opened Numerals

  /** The last minute a Python `datetime` can hold, 9999-12-31 23:59, counted
      in minutes from its first one, 0001-01-01 00:00. */
  const LastMinute := 5258964959

  /** A `datetime` with seconds and microseconds zero. */
  type Minute = m: int | 0 <= m <= LastMinute

  /** Longest description the compact rendering shows. */
  const ShownLength := 60

  /** The four units an offset can be given in, in the order the markers are
      looked for. */
  datatype Unit = Minutes | Hours | Days | Weeks

  function Rank(u: Unit): nat {
    match u
    case Minutes => 0
    case Hours => 1
    case Days => 2
    case Weeks => 3
  }

  /** The text whose presence selects a unit. */
  function Marker(u: Unit): string {
    match u
    case Minutes => " minute"
    case Hours => " hour"
    case Days => " day"
    case Weeks => " week"
  }

  /** The text the offset is split on to find the count. For hours it lacks
      the leading space, so the count text keeps a trailing blank. */
  function Separator(u: Unit): (sep: string)
    ensures |sep| > 0
    ensures u != Hours ==> sep == Marker(u)
    ensures u == Hours ==> Marker(u) == " " + sep
  {
    match u
    case Minutes => " minute"
    case Hours => "hour"
    case Days => " day"
    case Weeks => " week"
  }

  /** Length of one unit in minutes, as `timedelta` counts it. */
  function UnitLength(u: Unit): nat {
    match u
    case Minutes => 1
    case Hours => 60
    case Days => 1440
    case Weeks => 10080
  }

  /** `u`'s branch is the one taken: its marker is present and no marker
      looked for earlier is. */
  predicate Selects(offset: string, u: Unit) {
    && Contains(offset, Marker(u))
    && forall v :: Rank(v) < Rank(u) ==> !Contains(offset, Marker(v))
  }

  /** The count the selected branch reads: `int()` of the text before the
      first separator. */
  function CountOf(offset: string, u: Unit): Option<int> {
    PyInt(Before(offset, Separator(u)))
  }

  /** The count text is what precedes the first occurrence of the branch's
      separator, or the whole offset when the separator does not occur. */
  lemma CountOfText(offset: string, u: Unit)
    ensures !Contains(offset, Separator(u)) ==> CountOf(offset, u) == PyInt(offset)
    ensures forall i :: OccursAt(offset, Separator(u), i)
                        && (forall j :: 0 <= j < i ==> !OccursAt(offset, Separator(u), j))
                        ==> CountOf(offset, u) == PyInt(offset[..i])
  {
    forall i | OccursAt(offset, Separator(u), i)
               && (forall j :: 0 <= j < i ==> !OccursAt(offset, Separator(u), j))
      ensures CountOf(offset, u) == PyInt(offset[..i])
    {
      BeforeFirstOccurrence(offset, Separator(u), i);
    }
  }

  /** `count` units before `taskDt` when the result is a valid `datetime`;
      otherwise `taskDt`, the value the bare `except` falls back to when the
      subtraction overflows. */
  function Shifted(taskDt: Minute, count: int, u: Unit): Minute {
    var t := taskDt - count * UnitLength(u);
    if 0 <= t <= LastMinute then t else taskDt
  }

  /** The subtraction is kept exactly when it stays in range; otherwise the
      task's own minute stands. */
  lemma ShiftedInRange(taskDt: Minute, count: int, u: Unit)
    ensures Shifted(taskDt, count, u) == taskDt - count * UnitLength(u)
            <==> 0 <= taskDt - count * UnitLength(u) <= LastMinute
    ensures Shifted(taskDt, count, u) == taskDt
            || Shifted(taskDt, count, u) == taskDt - count * UnitLength(u)
  {
  }

  /** One branch's `try`: parse the count, subtract; fall back to `taskDt`
      on any failure. */
  function Branch(taskDt: Minute, offset: string, u: Unit): Minute {
    match CountOf(offset, u)
    case None => taskDt
    case Some(n) => Shifted(taskDt, n, u)
  }

  /** The unit whose branch is taken: the first unit, in the order the
      markers are looked for, whose marker the offset contains. */
  function Selected(offset: string): (r: Option<Unit>)
    ensures r.None? <==> forall u :: !Contains(offset, Marker(u))
    ensures forall u :: r == Some(u) <==> Selects(offset, u)
  {
    if Contains(offset, Marker(Minutes)) then Some(Minutes)
    else if Contains(offset, Marker(Hours)) then Some(Hours)
    else if Contains(offset, Marker(Days)) then Some(Days)
    else if Contains(offset, Marker(Weeks)) then Some(Weeks)
    else None
  }

  /** The notification minute of a task starting at `taskDt` whose offset
      text is `offset`. */
  function Resolve(taskDt: Minute, offset: string): (r: Minute)
    ensures (forall u :: !Contains(offset, Marker(u))) ==> r == taskDt
    ensures forall u :: Selects(offset, u) ==>
              match CountOf(offset, u)
              case None => r == taskDt
              case Some(n) =>
                var t := taskDt - n * UnitLength(u);
                r == (if 0 <= t <= LastMinute then t else taskDt)
  {
    match Selected(offset)
    case None => taskDt
    case Some(u) =>
      assert forall v :: Selects(offset, v) ==> v == u;
      Branch(taskDt, offset, u)
  }

  /** A task. `handle` stands for the object's identity, which is what
      `list.remove` compares since the class defines no equality. */
  datatype Task = Task(
    handle: nat,
    title: string,
    startDate: string,
    taskTime: string,
    description: string,
    phone: Option<string>,
    notifTime: Minute)

  /** The constructor. `parse` stands for `strptime` with the format
      month/day/two-digit-year hour:minute; it yields None where `strptime`
      raises, which the constructor does not catch. */
  function NewTask(handle: nat, title: string, startDate: string, taskTime: string,
                   offset: string, description: string, phone: Option<string>,
                   parse: string -> Option<Minute>): (r: Option<Task>)
    ensures r.None? <==> parse(startDate + " " + taskTime).None?
    ensures r.Some? ==>
              && r.value.notifTime == Resolve(parse(startDate + " " + taskTime).value, offset)
              && r.value.handle == handle && r.value.title == title
              && r.value.startDate == startDate && r.value.taskTime == taskTime
              && r.value.description == description && r.value.phone == phone
  {
    match parse(startDate + " " + taskTime)
    case None => None
    case Some(taskDt) =>
      Some(Task(handle, title, startDate, taskTime, description, phone, Resolve(taskDt, offset)))
  }

  /** The description as the compact rendering shows it. */
  function ShownDescription(d: string): (r: string)
    ensures |r| <= ShownLength && |r| <= |d| && r == d[..|r|]
    ensures |d| <= ShownLength ==> r == d
    ensures |d| > ShownLength ==> |r| == ShownLength
  {
    if |d| > ShownLength then d[..ShownLength] else d
  }

  /** `str(task)`. `showTime` stands for `str()` of a `datetime`. */
  function Render(t: Task, showTime: Minute -> string): (r: string)
    ensures StartsWith(r, "Title:        " + t.title)
    ensures |r| >= 14 + |ShownDescription(t.description)|
    ensures r[|r| - 14 - |ShownDescription(t.description)|..]
            == "\nDescription: " + ShownDescription(t.description)
  {
    var head := "Title:        " + t.title;
    var tail := "\nDescription: " + ShownDescription(t.description);
    var r := head
      + "\nStart Date:  " + t.startDate
      + "\nTask Time:   " + t.taskTime
      + "\nNotif. Time: " + showTime(t.notifTime)
      + tail;
    assert r[..|head|] == head;
    assert r[|r| - |tail|..] == tail;
    r
  }

  /** The text sent as the notification (and read aloud). */
  function Tts(t: Task): (r: string)
    ensures StartsWith(r, t.title + " starts on " + t.startDate + " at " + t.taskTime + ".\n\n")
    ensures |r| > |t.description| && r[|r| - |t.description| - 1..] == " " + t.description
  {
    var head := t.title + " starts on " + t.startDate + " at " + t.taskTime + ".\n\n";
    var tail := " " + t.description;
    var r := head + tail;
    assert r[..|head|] == head;
    assert r[|r| - |tail|..] == tail;
    r
  }

  // ---------------------------------------------------------------- properties of Resolve

  lemma TailLacksEarlierMarkers(u: Unit, v: Unit)
    requires Rank(v) < Rank(u)
    ensures !Contains(Marker(u) + "s before", Marker(v))
  {
    MissingCharacter(Marker(u) + "s before", Marker(v), 1);
  }

  /** Only the unit word of `Show(n) + Marker(u) + "s before"` can hold a
      marker: the digits and the sign hold no blank. */
  lemma SelectsShownOffset(n: int, u: Unit)
    ensures Selects(Show(n) + Marker(u) + "s before", u)
  {
    var d := Show(n);
    var tail := Marker(u) + "s before";
    assert Show(n) + Marker(u) + "s before" == d + tail;
    assert ' ' !in d;
    forall v
      ensures Contains(d + tail, Marker(v)) <==> Contains(tail, Marker(v))
    {
      BlankFreePrefix(d, tail, Marker(v));
    }
    TailSelects(u);
  }

  /** A text without blanks in front of the unit word adds no occurrence of
      a pattern that starts with a blank. */
  lemma BlankFreePrefix(d: string, tail: string, pat: string)
    requires |pat| > 0 && pat[0] == ' ' && ' ' !in d
    ensures Contains(d + tail, pat) <==> Contains(tail, pat)
  {
    var s := d + tail;
    assert s[0..|d|] == d;
    NoOccurrenceBefore(s, pat, 0, |d|);
    ContainsInSuffix(d, tail, pat);
  }

  lemma TailSelects(u: Unit)
    ensures Selects(Marker(u) + "s before", u)
  {
    var tail := Marker(u) + "s before";
    assert tail[0..|Marker(u)|] == Marker(u);
    assert OccursAt(tail, Marker(u), 0);
    forall v | Rank(v) < Rank(u)
      ensures !Contains(tail, Marker(v))
    {
      TailLacksEarlierMarkers(u, v);
    }
  }

  /** The count text of `Show(n) + Marker(u) + "s before"` reads as `n`. */
  lemma CountOfShownOffset(n: int, u: Unit)
    ensures CountOf(Show(n) + Marker(u) + "s before", u) == Some(n)
  {
    if u == Hours {
      CountOfShownHours(n);
    } else {
      CountOfShownOther(n, u);
    }
  }

  lemma CountOfShownHours(n: int)
    ensures CountOf(Show(n) + Marker(Hours) + "s before", Hours) == Some(n)
  {
    var d := Show(n);
    var s := d + (Marker(Hours) + "s before");
    assert Show(n) + Marker(Hours) + "s before" == s;
    assert Before(s, "hour") == d + " " by {
      HourCountText(d, s);
    }
    assert PyInt(d + " ") == Some(n) by {
      PyIntShow(n);
      BlankIsIntSpace();
      PyIntIgnoresTrailingSpace(d, ' ');
    }
    CountFromText(s, Hours, d + " ", n);
  }

  lemma CountFromText(s: string, u: Unit, text: string, n: int)
    requires Before(s, Separator(u)) == text && PyInt(text) == Some(n)
    ensures CountOf(s, u) == Some(n)
  {
  }

  lemma CountOfShownOther(n: int, u: Unit)
    requires u != Hours
    ensures CountOf(Show(n) + Marker(u) + "s before", u) == Some(n)
  {
    var d := Show(n);
    var s := d + (Marker(u) + "s before");
    assert Show(n) + Marker(u) + "s before" == s;
    assert Before(s, Separator(u)) == d by {
      assert ' ' !in d;
      CountTextBeforeMarker(d, u);
    }
    assert PyInt(d) == Some(n) by {
      PyIntShow(n);
    }
    CountFromText(s, u, d, n);
  }

  /** Split on a marker other than the hour's, the count text is exactly
      what precedes the unit word. */
  lemma CountTextBeforeMarker(d: string, u: Unit)
    requires u != Hours && ' ' !in d
    ensures Before(d + (Marker(u) + "s before"), Separator(u)) == d
  {
    var s := d + (Marker(u) + "s before");
    assert s[0..|d|] == d;
    NoOccurrenceBefore(s, Separator(u), 0, |d|);
    assert s[|d|..|d| + |Separator(u)|] == Separator(u);
    BeforeFirstOccurrence(s, Separator(u), |d|);
  }

  /** Split on "hour", the count text keeps the blank before the unit word. */
  lemma HourCountText(d: string, s: string)
    requires 'h' !in d && ' ' !in d
    requires s == d + (Marker(Hours) + "s before")
    ensures Before(s, "hour") == d + " "
  {
    assert s == (d + " ") + "hours before";
    assert s[0..|d| + 1] == d + " ";
    assert 'h' !in d + " ";
    NoOccurrenceBefore(s, "hour", 0, |d| + 1);
    assert s[|d| + 1..|d| + 5] == "hour";
    BeforeFirstOccurrence(s, "hour", |d| + 1);
  }

  /** An offset written as `str(n)` followed by a unit word and " before"
      moves the notification `n` units before the start, or leaves it at the
      start when that would leave datetime's range. A negative `n` moves it
      after the start. */
  lemma ResolveShownOffset(taskDt: Minute, n: int, u: Unit)
    ensures var t := taskDt - n * UnitLength(u);
            Resolve(taskDt, Show(n) + Marker(u) + "s before")
            == (if 0 <= t <= LastMinute then t else taskDt)
  {
    SelectsShownOffset(n, u);
    CountOfShownOffset(n, u);
  }

  /** The worked case: "30 minutes before" notifies half an hour early. */
  lemma ThirtyMinutesBefore(taskDt: Minute)
    requires taskDt >= 30
    ensures Resolve(taskDt, "30 minutes before") == taskDt - 30
  {
    assert Show(30) == "30";
    assert Show(30) + Marker(Minutes) + "s before" == "30 minutes before";
    ResolveShownOffset(taskDt, 30, Minutes);
  }

  /** A negative count is accepted and notifies after the start: the
      notification minute is not bounded by the start minute. */
  lemma NegativeCountNotifiesLater(taskDt: Minute, n: int)
    requires n < 0 && taskDt - n * 60 <= LastMinute
    ensures Resolve(taskDt, Show(n) + " hours before") > taskDt
  {
    assert Show(n) + Marker(Hours) + "s before" == Show(n) + " hours before";
    ResolveShownOffset(taskDt, n, Hours);
  }

  /** The minute marker wins even though its count text, "1 hour 30", is no
      integer: the hour marker is never consulted and the task time is used. */
  lemma MixedUnitsFallBack(taskDt: Minute)
    ensures Resolve(taskDt, "1 hour 30 minutes before") == taskDt
  {
    var s := "1 hour 30 minutes before";
    MinuteCountUnreadable(s);
  }

  lemma MinuteCountUnreadable(s: string)
    requires s == "1 hour 30 minutes before"
    ensures Selects(s, Minutes) && CountOf(s, Minutes).None?
  {
    MinuteCountText(s);
    var count := "1 hour 30";
    assert count[1] == ' ' && Stripped(count);
    InnerBlankUnreadable(count);
  }

  lemma MinuteCountText(s: string)
    requires s == "1 hour 30 minutes before"
    ensures Contains(s, Marker(Minutes))
    ensures Before(s, Marker(Minutes)) == "1 hour 30"
  {
    assert s == "1 hour 30" + Marker(Minutes) + "s before";
    BeforeConcat("1 hour 30", Marker(Minutes), "s before", 1);
  }

  /** Text without any unit marker notifies at the start. */
  lemma GarbageFallsBack(taskDt: Minute)
    ensures Resolve(taskDt, "garbage text") == taskDt
  {
    var s := "garbage text";
    MissingCharacter(s, " minute", 1);
    MissingCharacter(s, " hour", 1);
    MissingCharacter(s, " day", 1);
    MissingCharacter(s, " week", 1);
    assert forall u :: Marker(u) in {" minute", " hour", " day", " week"};
  }
}

=== FILE: text.dfy ===
/** String operations the scripts use, with Python's meaning: `in` on strings,
    `str.split(sep)[0]`, `str.split(c, 1)[1]`, `str.replace(c, '')`, cutting at a
    comment character, `str.strip()`, `str.startswith`, `str.lower()` and
    iterating a text file line by line. */
module Text {

  datatype Option<T> = None | Some(value: T)

  /** The characters for which Python's `str.isspace` holds: what
      `str.strip()` removes. */
  const Whitespace: set<char> :=
     {'\t', '\n', '\U{0B}', '\U{0C}', '\r', '\U{1C}', '\U{1D}', '\U{1E}',
      '\U{1F}', ' ', '\U{85}', '\U{A0}', '\U{1680}', '\U{2000}', '\U{2001}', '\U{2002}',
      '\U{2003}', '\U{2004}', '\U{2005}', '\U{2006}', '\U{2007}', '\U{2008}', '\U{2009}', '\U{200A}',
      '\U{2028}', '\U{2029}', '\U{202F}', '\U{205F}', '\U{3000}'}

  predicate IsSpace(c: char) {
    c in Whitespace
  }

  predicate AllSpace(s: string) {
    forall i :: 0 <= i < |s| ==> IsSpace(s[i])
  }

  /** Neither starts nor ends with whitespace: what `strip()` leaves. */
  predicate Stripped(s: string) {
    |s| == 0 || (!IsSpace(s[0]) && !IsSpace(s[|s| - 1]))
  }

  // ---------------------------------------------------------------- strip

  function TrimLeft(s: string): (r: string)
    ensures |r| <= |s| && r == s[|s| - |r|..]
    ensures AllSpace(s[..|s| - |r|])
    ensures |r| > 0 ==> !IsSpace(r[0])
  {
    if |s| > 0 && IsSpace(s[0]) then
      var r := TrimLeft(s[1..]);
      assert forall k :: 1 <= k < |s| - |r| ==> s[k] == s[1..][k - 1];
      r
    else s
  }

  function TrimRight(s: string): (r: string)
    ensures |r| <= |s| && r == s[..|r|]
    ensures AllSpace(s[|r|..])
    ensures |r| > 0 ==> !IsSpace(r[|r| - 1])
  {
    if |s| > 0 && IsSpace(s[|s| - 1]) then
      var r := TrimRight(s[..|s| - 1]);
      assert s[..|s| - 1][..|r|] == s[..|r|];
      assert s[|r|..] == s[..|s| - 1][|r|..] + [s[|s| - 1]];
      r
    else s
  }

  /** Python's `s.strip()`: the longest infix without surrounding whitespace. */
  function Strip(s: string): (r: string)
    ensures Stripped(r)
    ensures |r| <= |s|
  {
    TrimRight(TrimLeft(s))
  }

  /** `strip()` removes whitespace only, and only around the text it keeps. */
  lemma StripDecomposition(s: string) returns (i: nat)
    ensures i + |Strip(s)| <= |s|
    ensures s == s[..i] + Strip(s) + s[i + |Strip(s)|..]
    ensures AllSpace(s[..i]) && AllSpace(s[i + |Strip(s)|..])
  {
    var l := TrimLeft(s);
    var r := TrimRight(l);
    i := |s| - |l|;
    SplitSlices(s, i, |r|);
    assert s[i..i + |r|] == l[..|r|] == r;
    assert s[i + |r|..] == l[|r|..];
  }

  /** `strip()` introduces no character that was not there. */
  lemma StripKeepsCharacters(s: string)
    ensures forall x :: x in Strip(s) ==> x in s
  {
    var i := StripDecomposition(s);
  }

  lemma SplitSlices(s: string, i: nat, n: nat)
    requires i + n <= |s|
    ensures s == s[..i] + s[i..i + n] + s[i + n..]
  {
  }

  lemma {:induction false} TrimLeftSpaces(a: string, x: string)
    requires AllSpace(a)
    requires |x| == 0 || !IsSpace(x[0])
    ensures TrimLeft(a + x) == x
    decreases |a|
  {
    if |a| > 0 {
      assert (a + x)[1..] == a[1..] + x;
      TrimLeftSpaces(a[1..], x);
    } else {
      assert a + x == x;
    }
  }

  lemma {:induction false} TrimRightSpaces(x: string, b: string)
    requires AllSpace(b)
    requires |x| == 0 || !IsSpace(x[|x| - 1])
    ensures TrimRight(x + b) == x
    decreases |b|
  {
    if |b| > 0 {
      assert (x + b)[..|x + b| - 1] == x + b[..|b| - 1];
      TrimRightSpaces(x, b[..|b| - 1]);
    } else {
      assert x + b == x;
    }
  }

  /** Whitespace around an already stripped text is exactly what `strip()`
      removes. */
  lemma StripSurrounded(a: string, v: string, b: string)
    requires AllSpace(a) && AllSpace(b) && Stripped(v)
    ensures Strip(a + v + b) == v
  {
    if |v| == 0 {
      assert a + v + b == (a + b) + [];
      TrimLeftSpaces(a + b, []);
    } else {
      assert a + v + b == a + (v + b);
      TrimLeftSpaces(a, v + b);
      TrimRightSpaces(v, b);
    }
  }

  lemma StripStripped(v: string)
    requires Stripped(v)
    ensures Strip(v) == v
  {
    assert [] + v + [] == v;
    StripSurrounded([], v, []);
  }

  /** One more trailing whitespace character does not change what `strip()`
      returns. */
  lemma StripIgnoresTrailingSpace(s: string, c: char)
    requires IsSpace(c)
    ensures Strip(s + [c]) == Strip(s)
  {
    var v := Strip(s);
    var i := StripDecomposition(s);
    var a, b := s[..i], s[i + |v|..];
    assert s + [c] == a + v + (b + [c]) by {
      assert s == a + v + b;
    }
    AllSpaceSnoc(b, c);
    StripSurrounded(a, v, b + [c]);
  }

  lemma StripIgnoresLeadingSpace(c: char, s: string)
    requires IsSpace(c)
    ensures Strip([c] + s) == Strip(s)
  {
    var v := Strip(s);
    var i := StripDecomposition(s);
    var a, b := s[..i], s[i + |v|..];
    ConsRegroup(c, s, a, v, b);
    AllSpaceCons(c, a);
    StripSurrounded([c] + a, v, b);
  }

  lemma ConsRegroup(c: char, s: string, a: string, v: string, b: string)
    requires s == a + v + b
    ensures [c] + s == ([c] + a) + v + b
  {
  }

  lemma AllSpaceCons(c: char, a: string)
    requires IsSpace(c) && AllSpace(a)
    ensures AllSpace([c] + a)
  {
    assert forall k :: 0 < k <= |a| ==> ([c] + a)[k] == a[k - 1];
  }

  lemma AllSpaceSnoc(b: string, c: char)
    requires AllSpace(b) && IsSpace(c)
    ensures AllSpace(b + [c])
  {
    assert forall k :: 0 <= k < |b| ==> (b + [c])[k] == b[k];
  }

  // ---------------------------------------------------------------- search

  predicate OccursAt(s: string, pat: string, i: int) {
    0 <= i && i + |pat| <= |s| && s[i..i + |pat|] == pat
  }

  /** Python's `pat in s`. */
  predicate Contains(s: string, pat: string) {
    exists i :: 0 <= i <= |s| && OccursAt(s, pat, i)
  }

  function FindFrom(s: string, pat: string, from: nat): (r: Option<nat>)
    requires from <= |s|
    ensures r.Some? ==> from <= r.value && OccursAt(s, pat, r.value)
    ensures r.Some? ==> forall j :: from <= j < r.value ==> !OccursAt(s, pat, j)
    ensures r.None? ==> forall j :: from <= j ==> !OccursAt(s, pat, j)
    decreases |s| - from
  {
    if from + |pat| > |s| then None
    else if s[from..from + |pat|] == pat then Some(from)
    else FindFrom(s, pat, from + 1)
  }

  /** Index of the first occurrence of `pat` in `s`. */
  function Find(s: string, pat: string): (r: Option<nat>)
    ensures r.None? <==> !Contains(s, pat)
    ensures r.Some? ==> OccursAt(s, pat, r.value)
                        && forall j :: 0 <= j < r.value ==> !OccursAt(s, pat, j)
  {
    FindFrom(s, pat, 0)
  }

  /** Python's `s.split(pat)[0]`: the text before the first occurrence of
      `pat`, or all of `s` when there is none. An empty separator makes
      Python raise, and the scripts never pass one. */
  function Before(s: string, pat: string): (r: string)
    requires |pat| > 0
    ensures |r| <= |s| && r == s[..|r|]
    ensures Contains(s, pat) ==> OccursAt(s, pat, |r|)
    ensures forall j :: 0 <= j < |r| ==> !OccursAt(s, pat, j)
    ensures !Contains(s, pat) ==> r == s
  {
    match Find(s, pat)
    case None => s
    case Some(i) => s[..i]
  }

  /** The first occurrence is the one `Before` cuts at. */
  lemma BeforeFirstOccurrence(s: string, pat: string, i: nat)
    requires |pat| > 0
    requires OccursAt(s, pat, i)
    requires forall j :: 0 <= j < i ==> !OccursAt(s, pat, j)
    ensures Before(s, pat) == s[..i]
  {
    var r := Before(s, pat);
    assert OccursAt(s, pat, |r|);
  }

  /** Split on `pat`, a text whose first occurrence of `pat` is the one
      written after `a` keeps `a`: the character `pat[d]` occurs neither in
      `a` past its first `d` characters nor in `pat` before position `d`. */
  lemma BeforeConcat(a: string, pat: string, b: string, d: nat)
    requires d < |pat| && d <= |a|
    requires pat[d] !in a[d..] && pat[d] !in pat[..d]
    ensures Contains(a + pat + b, pat)
    ensures Before(a + pat + b, pat) == a
  {
    var s := a + pat + b;
    assert s[|a|..|a| + |pat|] == pat;
    assert OccursAt(s, pat, |a|);
    assert s[d..|a| + d] == a[d..] + pat[..d];
    NoOccurrenceBefore(s, pat, d, |a|);
    BeforeFirstOccurrence(s, pat, |a|);
    assert s[..|a|] == a;
  }

  /** No occurrence of `pat` can start before `k` when the character `pat`
      has at position `d` appears nowhere in `s[d..k + d]`. */
  lemma NoOccurrenceBefore(s: string, pat: string, d: nat, k: nat)
    requires d < |pat| && k + d <= |s|
    requires pat[d] !in s[d..k + d]
    ensures forall j :: 0 <= j < k ==> !OccursAt(s, pat, j)
  {
    forall j | 0 <= j < k
      ensures !OccursAt(s, pat, j)
    {
      assert s[d..k + d][j] == s[j + d];
      if j + |pat| <= |s| {
        assert s[j..j + |pat|][d] == s[j + d] != pat[d];
      }
    }
  }

  /** A text lacking some character of `pat` does not contain `pat`. */
  lemma MissingCharacter(s: string, pat: string, d: nat)
    requires d < |pat| && pat[d] !in s
    ensures !Contains(s, pat)
  {
    forall i | 0 <= i <= |s|
      ensures !OccursAt(s, pat, i)
    {
      if i + |pat| <= |s| {
        assert s[i..i + |pat|][d] == s[i + d] != pat[d];
      }
    }
  }

  /** An occurrence that starts at or after `|a|` lies wholly inside `b`. */
  lemma ContainsInSuffix(a: string, b: string, pat: string)
    requires |pat| > 0
    requires forall j :: 0 <= j < |a| ==> !OccursAt(a + b, pat, j)
    ensures Contains(a + b, pat) <==> Contains(b, pat)
  {
    if Contains(a + b, pat) {
      var i :| 0 <= i <= |a + b| && OccursAt(a + b, pat, i);
      assert i >= |a| && i + |pat| <= |a + b|;
      SliceOfSuffix(a, b, i - |a|, |pat|);
      assert OccursAt(b, pat, i - |a|);
    }
    if Contains(b, pat) {
      var i :| 0 <= i <= |b| && OccursAt(b, pat, i);
      assert i + |pat| <= |b|;
      SliceOfSuffix(a, b, i, |pat|);
      assert OccursAt(a + b, pat, |a| + i);
    }
  }

  lemma SliceOfSuffix(a: string, b: string, i: nat, n: nat)
    requires i + n <= |b|
    ensures (a + b)[|a| + i..|a| + i + n] == b[i..i + n]
  {
    var c := a + b;
    assert c[|a|..] == b;
    assert c[|a| + i..|a| + i + n] == c[|a|..][i..i + n];
  }

  // ---------------------------------------------------------------- single characters

  function IndexOf(s: string, c: char): (r: Option<nat>)
    ensures r.None? <==> c !in s
    ensures r.Some? ==> r.value < |s| && s[r.value] == c && c !in s[..r.value]
  {
    if |s| == 0 then None
    else if s[0] == c then Some(0)
    else match IndexOf(s[1..], c)
      case None => None
      case Some(i) =>
        assert s[..i + 1] == [s[0]] + s[1..][..i];
        Some(i + 1)
  }

  lemma {:induction false} IndexOfAfter(a: string, b: string, c: char)
    requires c !in a && c in b
    ensures IndexOf(a + b, c) == Some(|a| + IndexOf(b, c).value)
    decreases |a|
  {
    if |a| > 0 {
      assert (a + b)[0] == a[0] != c;
      assert (a + b)[1..] == a[1..] + b;
      IndexOfAfter(a[1..], b, c);
    } else {
      assert a + b == b;
    }
  }

  /** Python's `s.split(c, 1)[1]`: the text after the first `c`; the split
      yields no second part when `c` is absent. */
  function AfterFirst(s: string, c: char): (r: string)
    requires c in s
    ensures |r| < |s| && r == s[|s| - |r|..]
    ensures s[|s| - |r| - 1] == c && c !in s[..|s| - |r| - 1]
  {
    s[IndexOf(s, c).value + 1..]
  }

  lemma AfterFirstOfConcat(a: string, c: char, b: string)
    requires c !in a
    ensures AfterFirst(a + [c] + b, c) == b
  {
    assert a + [c] + b == a + ([c] + b);
    IndexOfAfter(a, [c] + b, c);
  }

  /** Python's `s.replace(c, '')` for a single character. */
  function RemoveChar(s: string, c: char): (r: string)
    ensures c !in r
    ensures |r| <= |s|
  {
    if |s| == 0 then []
    else if s[0] == c then RemoveChar(s[1..], c)
    else [s[0]] + RemoveChar(s[1..], c)
  }

  /** Deleting `c` keeps every other character. */
  lemma {:induction false} RemoveCharMembers(s: string, c: char)
    ensures forall x :: x in RemoveChar(s, c) <==> x in s && x != c
    decreases |s|
  {
    if |s| > 0 {
      RemoveCharMembers(s[1..], c);
      assert s == [s[0]] + s[1..];
    }
  }

  lemma {:induction false} RemoveCharConcat(a: string, b: string, c: char)
    ensures RemoveChar(a + b, c) == RemoveChar(a, c) + RemoveChar(b, c)
    decreases |a|
  {
    if |a| > 0 {
      assert (a + b)[1..] == a[1..] + b;
      RemoveCharConcat(a[1..], b, c);
    } else {
      assert a + b == b;
    }
  }

  lemma {:induction false} RemoveAbsentChar(s: string, c: char)
    requires c !in s
    ensures RemoveChar(s, c) == s
    decreases |s|
  {
    if |s| > 0 {
      RemoveAbsentChar(s[1..], c);
      assert s == [s[0]] + s[1..];
    }
  }

  /** The text before the first `c`, all of `s` when `c` is absent: on one
      line this is what `re.sub('c.*', '', s)` leaves. */
  function CutAt(s: string, c: char): (r: string)
    ensures c !in r
    ensures |r| <= |s| && r == s[..|r|]
    ensures |r| < |s| ==> s[|r|] == c
  {
    match IndexOf(s, c)
    case None => s
    case Some(i) => s[..i]
  }

  lemma CutAtAfter(a: string, b: string, c: char)
    requires c !in a && (|b| == 0 || b[0] == c)
    ensures CutAt(a + b, c) == a
  {
    if |b| == 0 {
      assert a + b == a;
    } else {
      IndexOfAfter(a, b, c);
      assert (a + b)[..|a|] == a;
    }
  }

  // ---------------------------------------------------------------- case and prefixes

  /** Python's `s.startswith(p)`. */
  predicate StartsWith(s: string, p: string) {
    |p| <= |s| && s[..|p|] == p
  }

  function LowerChar(c: char): char {
    if 'A' <= c <= 'Z' then (c as int + 32) as char else c
  }

  /** Python's `s.lower()`, for the ASCII letters. */
  function Lower(s: string): (r: string)
    ensures |r| == |s|
    ensures forall i :: 0 <= i < |s| ==> r[i] == LowerChar(s[i])
  {
    seq(|s|, i requires 0 <= i < |s| => LowerChar(s[i]))
  }

  // ---------------------------------------------------------------- lists

  /** `f` applied to each element, in order. */
  function Map<A, B>(xs: seq<A>, f: A -> B): (ys: seq<B>)
    ensures |ys| == |xs|
    ensures forall k :: 0 <= k < |xs| ==> ys[k] == f(xs[k])
  {
    seq(|xs|, k requires 0 <= k < |xs| => f(xs[k]))
  }

  lemma MapAppend<A, B>(xs: seq<A>, ys: seq<A>, f: A -> B)
    ensures Map(xs + ys, f) == Map(xs, f) + Map(ys, f)
  {
    var l, r := Map(xs + ys, f), Map(xs, f) + Map(ys, f);
    forall k | 0 <= k < |xs| + |ys|
      ensures l[k] == r[k]
    {
      if k < |xs| {
        assert (xs + ys)[k] == xs[k];
      } else {
        assert (xs + ys)[k] == ys[k - |xs|];
      }
    }
  }

  // ---------------------------------------------------------------- lines

  /** Python's universal-newline translation, which reading a file in text
      mode applies: `\r\n` and a lone `\r` each become `\n`. */
  function Newlines(text: string): (r: string)
    ensures '\r' !in r
    decreases |text|
  {
    if |text| == 0 then []
    else if text[0] == '\r' then
      "\n" + Newlines(if |text| > 1 && text[1] == '\n' then text[2..] else text[1..])
    else [text[0]] + Newlines(text[1..])
  }

  /** A text without carriage returns reads as written. */
  lemma {:induction false} NewlinesKeepPlainText(text: string)
    requires '\r' !in text
    ensures Newlines(text) == text
    decreases |text|
  {
    if |text| > 0 {
      assert text == [text[0]] + text[1..];
      NewlinesKeepPlainText(text[1..]);
    }
  }

  /** A `\r\n` pair is one line end, not two. */
  lemma NewlinesCrLf(a: string, b: string)
    requires '\r' !in a
    ensures Newlines(a + "\r\n" + b) == a + "\n" + Newlines(b)
  {
    NewlinesPrefix(a, "\r\n" + b);
    assert a + "\r\n" + b == a + ("\r\n" + b);
    assert ("\r\n" + b)[2..] == b;
  }

  /** A carriage return not followed by a newline is a line end of its own. */
  lemma NewlinesLoneCr(a: string, b: string)
    requires '\r' !in a
    requires |b| == 0 || b[0] != '\n'
    ensures Newlines(a + "\r" + b) == a + "\n" + Newlines(b)
  {
    ConcatAssoc(a, "\r", b);
    NewlinesPrefix(a, "\r" + b);
    LoneCrHead(b);
  }

  lemma ConcatAssoc(a: string, b: string, c: string)
    ensures a + b + c == a + (b + c)
  {
  }

  lemma LoneCrHead(b: string)
    requires |b| == 0 || b[0] != '\n'
    ensures Newlines("\r" + b) == "\n" + Newlines(b)
  {
    assert ("\r" + b)[1..] == b;
  }

  /** Two lines separated by `\r\n` read back as exactly those two lines. */
  lemma CrLfSeparatesLines(a: string, b: string)
    requires '\r' !in a && '\n' !in a
    requires '\r' !in b && '\n' !in b
    ensures FileLines(a + "\r\n" + b) == [a, b]
  {
    NewlinesCrLf(a, b);
    NewlinesKeepPlainText(b);
    LinesCons(a, b);
    assert Lines(b) == [b];
  }

  /** A file mixing all three line ends splits at each of them, the last
      line followed by the empty segment a final terminator leaves. The
      third line is not empty, or its `\r` and the `\n` after it would be
      one `\r\n`. */
  lemma MixedLineEnds(a: string, b: string, c: string)
    requires '\r' !in a && '\n' !in a
    requires '\r' !in b && '\n' !in b
    requires '\r' !in c && '\n' !in c && |c| > 0
    ensures FileLines(a + "\r\n" + b + "\r" + c + "\n") == [a, b, c, ""]
  {
    var text := a + "\r\n" + b + "\r" + c + "\n";
    var tail := c + "\n" + "";
    var rest := b + "\r" + tail;
    assert text == a + "\r\n" + rest;
    NewlinesCrLf(a, rest);
    assert tail[0] == c[0];
    NewlinesLoneCr(b, tail);
    NewlinesKeepPlainText(tail);
    var mid := b + "\n" + tail;
    var n := a + "\n" + mid;
    assert Newlines(text) == n;
    LinesCons(a, mid);
    LinesCons(b, tail);
    LinesCons(c, "");
    assert Lines("") == [""];
    assert FileLines(text) == Lines(n) == [a] + ([b] + ([c] + [""]));
    FourLines(a, b, c, "");
  }

  lemma FourLines(a: string, b: string, c: string, d: string)
    ensures [a] + ([b] + ([c] + [d])) == [a, b, c, d]
  {
  }

  /** A carriage return ends a line just as a newline does. */
  lemma CarriageReturnEndsLine(a: string, b: string)
    requires '\r' !in a && '\n' !in a
    ensures FileLines(a + "\r" + b)[0] == a
  {
    NewlinesPrefix(a, "\r" + b);
    assert a + "\r" + b == a + ("\r" + b);
    var t := Newlines("\r" + b);
    assert t[0] == '\n';
    var text := a + t;
    IndexOfAfter(a, t, '\n');
  }

  lemma {:induction false} NewlinesPrefix(a: string, b: string)
    requires '\r' !in a
    ensures Newlines(a + b) == a + Newlines(b)
    decreases |a|
  {
    if |a| > 0 {
      assert (a + b)[0] == a[0] && (a + b)[1..] == a[1..] + b;
      NewlinesPrefix(a[1..], b);
      assert a == [a[0]] + a[1..];
    } else {
      assert a + b == b;
    }
  }

  /** The text-mode file split at its line ends: each `\n`, `\r\n` or lone
      `\r` ends a line, and the terminators are dropped. Where `for line in
      f` yields nothing after a final terminator, and nothing at all for an
      empty file, this split has one empty segment more; it holds no `=`. */
  function FileLines(text: string): (ls: seq<string>)
    ensures |ls| >= 1
    ensures forall k :: 0 <= k < |ls| ==> '\n' !in ls[k] && '\r' !in ls[k]
  {
    LinesWithout(Newlines(text), '\r');
    Lines(Newlines(text))
  }

  /** The text split at each newline, the newlines dropped. A trailing
      newline leaves an empty last segment. */
  function Lines(text: string): (ls: seq<string>)
    ensures |ls| >= 1
    ensures forall k :: 0 <= k < |ls| ==> '\n' !in ls[k]
    decreases |text|
  {
    match IndexOf(text, '\n')
    case None => [text]
    case Some(i) => [text[..i]] + Lines(text[i + 1..])
  }

  /** The text a writer produces by separating the lines with newlines and
      not ending the last one. */
  function JoinLines(ls: seq<string>): (text: string)
    requires |ls| >= 1
    ensures |text| >= |ls| - 1
  {
    if |ls| == 1 then ls[0] else ls[0] + "\n" + JoinLines(ls[1..])
  }

  /** Reading back joined lines gives the same lines. */
  lemma {:induction false} LinesOfJoin(ls: seq<string>)
    requires |ls| >= 1
    requires forall k :: 0 <= k < |ls| ==> '\n' !in ls[k]
    ensures Lines(JoinLines(ls)) == ls
    decreases |ls|
  {
    if |ls| > 1 {
      LinesCons(ls[0], JoinLines(ls[1..]));
      LinesOfJoin(ls[1..]);
      assert ls == [ls[0]] + ls[1..];
    } else {
      assert '\n' !in ls[0];
    }
  }

  lemma LinesCons(a: string, rest: string)
    requires '\n' !in a
    ensures Lines(a + "\n" + rest) == [a] + Lines(rest)
  {
    var s := a + "\n" + rest;
    assert s == a + ("\n" + rest);
    IndexOfAfter(a, "\n" + rest, '\n');
    assert s[..|a|] == a;
    assert s[|a| + 1..] == rest;
  }

  /** A file written as lines without line ends reads back as those lines. */
  lemma FileLinesOfJoin(ls: seq<string>)
    requires |ls| >= 1
    requires forall k :: 0 <= k < |ls| ==> '\n' !in ls[k] && '\r' !in ls[k]
    ensures FileLines(JoinLines(ls)) == ls
  {
    JoinLinesWithout(ls, '\r');
    NewlinesKeepPlainText(JoinLines(ls));
    LinesOfJoin(ls);
  }

  /** Joining adds only newlines. */
  lemma {:induction false} JoinLinesWithout(ls: seq<string>, c: char)
    requires |ls| >= 1 && c != '\n'
    requires forall k :: 0 <= k < |ls| ==> c !in ls[k]
    ensures c !in JoinLines(ls)
    decreases |ls|
  {
    if |ls| > 1 {
      JoinLinesWithout(ls[1..], c);
      assert c !in ls[0];
    } else {
      assert c !in ls[0];
    }
  }

  /** The joined text ends with the last line, with no newline after it. */
  lemma {:induction false} JoinLinesEnd(ls: seq<string>)
    requires |ls| >= 1
    ensures |ls[|ls| - 1]| <= |JoinLines(ls)|
    ensures JoinLines(ls)[|JoinLines(ls)| - |ls[|ls| - 1]|..] == ls[|ls| - 1]
    decreases |ls|
  {
    if |ls| > 1 {
      var rest := JoinLines(ls[1..]);
      JoinLinesEnd(ls[1..]);
      assert ls[1..][|ls[1..]| - 1] == ls[|ls| - 1];
      var head := ls[0] + "\n";
      assert JoinLines(ls) == head + rest;
      assert (head + rest)[|head + rest| - |ls[|ls| - 1]|..] == rest[|rest| - |ls[|ls| - 1]|..];
    }
  }

  /** The lines of a text without `c` hold no `c`. */
  lemma {:induction false} LinesWithout(text: string, c: char)
    requires c !in text
    ensures forall k :: 0 <= k < |Lines(text)| ==> c !in Lines(text)[k]
    decreases |text|
  {
    match IndexOf(text, '\n')
    case None =>
    case Some(i) =>
      assert forall x :: x in text[i + 1..] ==> x in text;
      assert forall x :: x in text[..i] ==> x in text;
      LinesWithout(text[i + 1..], c);
  }
}
